=== FILE: README.md ===
# Classroom management: admission, listing and page helpers in Dafny

This project models three parts of a classroom-management web application
(an Express/PostgreSQL backend and a React frontend) as pure Dafny
functions over immutable values, and proves properties about them.

1. **Enrollment admission** (`POST /enrollments` and
   `POST /enrollments/join`). A request either enrols a student in a class
   or is refused. The checks run in a fixed order:
   - missing fields (400);
   - unknown class (404);
   - class at capacity (409);
   - unknown student (404);
   - already enrolled (409).

   If every check passes, the request inserts one enrollment (201) and
   answers with the enrollment LEFT JOINed with its class, subject,
   department and teacher. The store (classes, subjects, departments,
   users, enrollments, next serial id) is a value. `Admit` and `Join` map
   a store and a request to an outcome and the next store. The proofs
   show that any sequence of requests keeps three invariants: per-class
   capacity, unique (class, student) pairs, and fresh serial ids. They
   also show that joining by invite code is enrolling by the id of the
   class that owns the code.
2. **The list endpoints** `GET /departments`, `GET /subjects` and
   `GET /users`. Each one:
   - clamps the `page` and `limit` query strings (JavaScript `parseInt`,
     with NaN and 0 falling back to the defaults);
   - builds one where clause from optional case-insensitive substring and
     equality filters combined with AND;
   - counts the matching rows;
   - returns one page of them, newest first, with `totalPages` computed
     as the ceiling of total / limit.

   `Paging` holds the arithmetic and `ListQuery` holds the shape the three
   routes share. `DepartmentsRoute`, `SubjectsRoute` and `UsersRoute`
   instantiate that shape.
3. **Frontend helpers**:
   - `ClassShow`: the avatar initials, the teacher name with its
     "Unknown" default, the teacher initials and the "NA" placeholder on
     the class page;
   - `Dashboard`: the top-5 rankings, the six KPI cards with their zero
     defaults, and the role colour cycle.

Supporting modules:
- `Common`: `Option`, order-preserving `Filter`, and `First` (the first row
  of a `select ... where`).
- `Text`: JavaScript whitespace, `trim`, `split(" ")`, `filter(Boolean)`,
  ASCII case mapping, and ILIKE `%term%` as a substring test.
- `JsInt`: `parseInt(s, 10)` with NaN as `None`, and the decimal rendering
  it reads back.
- `Sorting`: a stable insertion sort, largest key first.
- `Schema`: the table rows.

The repeated-request case: a student who was just admitted and asks again
is told "already enrolled", unless that admission filled the class. The
capacity check runs before the duplicate check, so a full class answers
"capacity reached" even to a student who is already in it. The model
follows the code here (`RetryAfterSuccess`, `FullClassRefusesFirst`). It
does not follow the informal expectation that a repeat always reports
"already enrolled".

## Model

| member | source | states |
|---|---|---|
| Common.Truthy | classroom-backend/src/routes/enrollments.ts:45 | JavaScript truthiness of a request string, as in `!studentId` here and `if (search)` at departments.ts line 23: present and non-empty |
| Common.First | classroom-backend/src/routes/enrollments.ts:53-58 | `const [row] = select ... where`: `None` exactly when no row matches, otherwise a matching row with no matching row before it |
| Common.FilterFilter | classroom-backend/src/routes/subjects.ts:41-43 | filtering by one condition and then another keeps exactly the rows satisfying both, as `and(...)` does |
| Common.FilterCountsKey | classroom-backend/src/routes/enrollments.ts:61-64 | `count()` with `where key = v` is the number of rows whose key is v |
| JsInt.ParseIntOr | classroom-backend/src/routes/departments.ts:13 | `parseInt(s, 10) \|\| d`: NaN and zero give the fallback; any other parsed value is kept |
| JsInt.ParseInt | classroom-backend/src/routes/departments.ts:13 | `parseInt(s, 10)` on exact integers: skip leading whitespace, an optional sign, the longest run of decimal digits, NaN (`None`) when there is none; its partners are `ParseDecimal` and `ParseNoDigits` |
| JsInt.ParseDecimal | classroom-backend/src/routes/departments.ts:11-13 | `parseInt` reads back the decimal digits of n as n and `"-"` followed by them as -n, so the destructuring defaults `page = 1`, `limit = 10` parse to 1 and 10 |
| JsInt.ParseNoDigits | classroom-backend/src/routes/departments.ts:13 | text without digits parses to NaN |
| Text.TrimStart | classroom-backend/src/routes/departments.ts:13 | the whitespace `parseInt` skips: the result is a suffix, everything dropped is whitespace, and the result does not start with whitespace |
| Paging.ParamText | classroom-backend/src/routes/departments.ts:11-13 | the text `parseInt` sees: the query value when given, else `String` of the destructuring default, which parses back to that default |
| Paging.CurrentPage | classroom-backend/src/routes/departments.ts:11-13 | the page is at least 1; it is the parsed value when that is at least 1; it is 1 for NaN, "0" or a negative number |
| Paging.LimitPerPage | classroom-backend/src/routes/departments.ts:11-17 | the limit lies in [1, 100]; NaN or 0 gives 10; a negative number gives 1; above 100 gives 100; otherwise the parsed value |
| Paging.Offset | classroom-backend/src/routes/departments.ts:19 | `(currentPage - 1) * limitPerPage`, the rows skipped before the page; `RowOnItsPage` and `NextOffset` state what it means |
| Paging.NextOffset | classroom-backend/src/routes/departments.ts:19 | page n + 1 starts exactly one page of rows after page n |
| Paging.ClampDecimal | classroom-backend/src/routes/subjects.ts:12-18 | what the clamps make of a missing parameter, "n", "-n" and text without digits |
| Paging.CeilDiv | classroom-backend/src/routes/departments.ts:63 | `Math.ceil(total / limit)` in integers: (q-1)·limit < total ≤ q·limit |
| Paging.CeilDivUnique | classroom-backend/src/routes/users.ts:59 | exactly one page count meets that bound, so `totalPages` is 0 exactly when there are no rows |
| Paging.PageOf | classroom-backend/src/routes/departments.ts:19 | LIMIT/OFFSET: at most `limit` rows; exactly min(limit, rows left after the offset); row k of the page is row offset + k, where offset = (page-1)·limit |
| Paging.PageNonEmptyIff | classroom-backend/src/routes/departments.ts:54-63 | a page has rows exactly when its number is at most `totalPages` |
| Paging.RowOnItsPage | classroom-backend/src/routes/departments.ts:19 | result row k is shown on page k div limit + 1 at position k mod limit, and that page is within `totalPages` |
| Paging.PageOfDecimal | classroom-backend/src/routes/users.ts:13 | the query text "p" selects page p |
| Paging.FirstPagesPrefix | classroom-backend/src/routes/users.ts:19 | pages 1 to n, read in turn, are the ordered rows before the offset of page n + 1 (the first n·limit rows) |
| Paging.PagesCoverAll | classroom-backend/src/routes/users.ts:50-59 | pages 1 to `totalPages` show every row exactly once, in order |
| Paging.Respond | classroom-backend/src/routes/departments.ts:57-65 | the `pagination` object: clamped page and limit, `total` = number of rows, `totalPages` = CeilDiv(total, limit), a page non-empty exactly within `totalPages`, the page is the LIMIT/OFFSET slice |
| Sorting.SortDesc | classroom-backend/src/routes/departments.ts:53 | `ORDER BY ... DESC`: the result is ordered largest key first and is a permutation of the input |
| Sorting.SortMembers | calssroom-frontend/src/pages/dashboard.tsx:127-128 | sorting keeps exactly the input's elements |
| ListQuery.Ordered | classroom-backend/src/routes/departments.ts:44-53 | the rows the where clause keeps, newest first: a permutation of the matching rows (same multiset), each from the table and matching, every match present |
| ListQuery.List | classroom-backend/src/routes/subjects.ts:45-73 | the count and the page come from the same where clause: `total` = number of matching rows, `totalPages` = its ceiling over the limit, and the page is the LIMIT/OFFSET slice of the ordered matches |
| ListQuery.PageRows | classroom-backend/src/routes/departments.ts:44-55 | every row on a page is a matching table row, and the page runs newest to oldest |
| ListQuery.EveryMatchListed | classroom-backend/src/routes/users.ts:43-59 | every matching row is returned on some page p, with 1 ≤ p ≤ `totalPages` |
| ListQuery.CountAllWithoutFilter | classroom-backend/src/routes/users.ts:33-41 | with no where clause, `total` is the table size |
| Text.ILikeContains | classroom-backend/src/routes/departments.ts:26-27 | `value ILIKE '%term%'` as a substring test: the ASCII-lower-cased term occurs in the ASCII-lower-cased value (wildcards, escapes and locale case folding are left out) |
| Text.ILikeIgnoresCase | classroom-backend/src/routes/users.ts:25 | upper-casing either side does not change the ILIKE test |
| DepartmentsRoute.SubjectCount | classroom-backend/src/routes/departments.ts:47-52 | `count(subjects.id)` over the LEFT JOIN: exactly the number of subjects whose `departmentId` is the department's id (its multiplicity among the subjects' department ids), hence 0 exactly when none references it |
| DepartmentsRoute.Matches | classroom-backend/src/routes/departments.ts:23-30 | the where clause: no condition without a truthy search; otherwise name ILIKE or code ILIKE the term (partners: `SearchIgnoresCase`, `NoSearchCountsAll`) |
| DepartmentsRoute.ListDepartments | classroom-backend/src/routes/departments.ts:9-65 | page ≥ 1; limit in [1, 100]; `total` = number of departments whose name or code contains the search; `totalPages` = ceiling; `data` is the LIMIT/OFFSET slice at (page-1)·limit of the matching departments newest first, each with its own subject count |
| DepartmentsRoute.NoSearchCountsAll | classroom-backend/src/routes/departments.ts:21-41 | without a search term every department is counted |
| DepartmentsRoute.SearchIgnoresCase | classroom-backend/src/routes/departments.ts:23-29 | the search does not care how the term is capitalised |
| DepartmentsRoute.EveryMatchListed | classroom-backend/src/routes/departments.ts:44-63 | every matching department appears, with its subject count, on some page within `totalPages` |
| SubjectsRoute.Joined | classroom-backend/src/routes/subjects.ts:48-60 | `subjects LEFT JOIN departments`: one row per subject, holding its department, or null exactly when no department has that id |
| SubjectsRoute.Matches | classroom-backend/src/routes/subjects.ts:26-43 | the where clause: a truthy search needs name or code ILIKE it, a truthy department term needs a joined department whose name ILIKE it, and the two combine with AND |
| SubjectsRoute.ListSubjects | classroom-backend/src/routes/subjects.ts:9-74 | page ≥ 1; limit in [1, 100]; `total` = number of joined rows passing both filters; `totalPages` = ceiling; `data` is the LIMIT/OFFSET slice at (page-1)·limit of the matching joined rows newest first, so each row is a row of the LEFT JOIN |
| SubjectsRoute.FiltersCombineWithAnd | classroom-backend/src/routes/subjects.ts:26-43 | `and(...)`: filtering by the search and then by the department term selects exactly the rows of the combined where clause, and the response equals the department-only query run on the rows the search keeps |
| SubjectsRoute.NoFiltersCountsAll | classroom-backend/src/routes/subjects.ts:42-51 | with neither filter, every subject is counted |
| SubjectsRoute.EveryMatchListed | classroom-backend/src/routes/subjects.ts:54-73 | every matching subject appears on some page within `totalPages` |
| SubjectsRoute.DepartmentFilterNeedsDepartment | classroom-backend/src/routes/subjects.ts:37-39 | under a department filter, a subject without a department is never listed |
| UsersRoute.ListUsers | classroom-backend/src/routes/users.ts:9-61 | page ≥ 1; limit in [1, 100]; `total` = number of users passing both filters; `totalPages` = ceiling; `data` is the LIMIT/OFFSET slice at (page-1)·limit of the matching users newest first |
| UsersRoute.Matches | classroom-backend/src/routes/users.ts:23-34 | the where clause: a truthy search needs name or email ILIKE it, a truthy role needs exactly that role, and the two combine with AND |
| UsersRoute.RoleIsExact | classroom-backend/src/routes/users.ts:29-31 | with a role filter, every listed user has exactly that role |
| UsersRoute.FiltersCombineWithAnd | classroom-backend/src/routes/users.ts:23-34 | `and(...)`: filtering by the search and then by the role selects exactly the users of the combined where clause, and the response equals the role-only query run on the users the search keeps |
| UsersRoute.NoFiltersCountsAll | classroom-backend/src/routes/users.ts:33-41 | without filters every user is counted |
| UsersRoute.EveryMatchListed | classroom-backend/src/routes/users.ts:43-59 | every matching user appears on some page within `totalPages` |
| Enrollments.Inserted | classroom-backend/src/routes/enrollments.ts:97-100 | the insert appends exactly one row (next serial id, class, student), keeps the rows before it and the other tables, and advances the serial counter |
| Enrollments.TruthyId | classroom-backend/src/routes/enrollments.ts:45 | `!classId` is false exactly for a present, non-zero id: 0 counts as missing |
| Enrollments.Status | classroom-backend/src/routes/enrollments.ts:47-107 | the HTTP status of each outcome: 400 missing fields, 404 unknown class or student, 409 capacity or duplicate, 201 created |
| Enrollments.Headcount | classroom-backend/src/routes/enrollments.ts:61-66 | `count()` of the class's enrollments: exactly the multiplicity of the class id among the enrollments' class ids |
| Enrollments.Full | classroom-backend/src/routes/enrollments.ts:68 | the capacity test: a non-null capacity that the count has reached; a null capacity never fills |
| Enrollments.EnrollmentDetails | classroom-backend/src/routes/enrollments.ts:14-39 | `None` exactly when no enrollment has the id; otherwise the enrollment with its class, subject, department and teacher, each one the joined row or null exactly when the join finds none |
| Enrollments.AdmitToClass | classroom-backend/src/routes/enrollments.ts:61-107 | capacity reached iff the capacity is non-null and the count has reached it; student not found iff not full and no user has the id; already enrolled iff not full, the user exists and the pair exists; created otherwise; only a creation changes the store, and a 201's `data` is the details lookup of the fresh id in the new store |
| Enrollments.Admit | classroom-backend/src/routes/enrollments.ts:43-107 | a refusal leaves the store unchanged; a 201 needs truthy fields and inserts exactly (classId, studentId) |
| Enrollments.Join | classroom-backend/src/routes/enrollments.ts:115-179 | a refusal leaves the store unchanged; a 201 inserts the id of a class that owns the invite code |
| Enrollments.AdmitOutcome | classroom-backend/src/routes/enrollments.ts:45-58 | 400 iff `classId` (0 included) or `studentId` is falsy; then 404 iff no class has the id; otherwise the decision is `AdmitToClass` on that class |
| Enrollments.FullClassRefusesFirst | classroom-backend/src/routes/enrollments.ts:53-95 | check order: a full class answers "capacity reached" and changes nothing, even for an unknown or already enrolled student |
| Enrollments.JoinOutcome | classroom-backend/src/routes/enrollments.ts:117-130 | 400 iff the invite code or student id is falsy; then 404 iff no class has the code |
| Enrollments.JoinTakesFirstOwner | classroom-backend/src/routes/enrollments.ts:115-179 | `/join` with a known code gives the same outcome and store as `POST /` with the id of the first class that owns the code, also when several classes share the code |
| Enrollments.JoinIsAdmitById | classroom-backend/src/routes/enrollments.ts:115-179 | when invite codes are unique, `/join` with the code of class i gives the same outcome and store as `POST /` with class i's id |
| Enrollments.HeadcountAppend | classroom-backend/src/routes/enrollments.ts:61-66 | an appended enrollment raises its class's count by one and leaves every other count alone |
| Enrollments.CreatedAddsOne | classroom-backend/src/routes/enrollments.ts:97-107 | after a 201 the requested class has one more enrollment and every other class has as many as before |
| Enrollments.NewRowDetails | classroom-backend/src/routes/enrollments.ts:97-105 | right after the insert, the details of the fresh id are the new row joined with its class |
| Enrollments.CreatedDetails | classroom-backend/src/routes/enrollments.ts:105-107 | a 201's `data` is present and holds the new row (fresh id, class, student) and its class |
| Enrollments.RetryAfterSuccess | classroom-backend/src/routes/enrollments.ts:61-95 | repeating a successful request changes nothing; the answer is "capacity reached" exactly when the class, with the new row, is full, and "already enrolled" exactly when it is not |
| Enrollments.InsertKeepsValid | classroom-backend/src/routes/enrollments.ts:61-100 | an insert the checks allow keeps capacities respected, pairs unique and ids below the counter, in any store with unique class ids (invite codes may repeat) |
| Enrollments.AdmitPreserves | classroom-backend/src/routes/enrollments.ts:43-107 | any `POST /` keeps capacities respected, pairs unique and enrollment ids below the counter, in any store with unique class ids (invite codes may repeat) |
| Enrollments.JoinPreserves | classroom-backend/src/routes/enrollments.ts:115-179 | any `POST /join` keeps capacities respected, pairs unique and enrollment ids below the counter, in any store with unique class ids, including stores where invite codes repeat |
| Enrollments.RunPreserves | classroom-backend/src/routes/enrollments.ts:61-100 | any sequence of requests of either kind keeps capacities respected and pairs unique, starting from any store with unique class ids, capacities respected, unique pairs and the serial counter ahead of every enrollment id; invite codes may repeat |
| Enrollments.FillClass | classroom-backend/src/routes/enrollments.ts:61-107 | distinct existing students enrolling one after another in an empty class of capacity k (with its serial, non-zero id, in a store as for RunPreserves, invite codes unconstrained): the first k get 201, every later one gets "capacity reached", and the class ends with min(n, k) enrollments |
| Text.Trim | calssroom-frontend/src/pages/classes/show.tsx:22 | `trim`: the middle of the string with only whitespace removed at both ends, and no whitespace left at either end |
| Text.Words | calssroom-frontend/src/pages/classes/show.tsx:22 | `split(" ").filter(Boolean)`: non-empty pieces without spaces |
| Text.WordsKeepText | calssroom-frontend/src/pages/classes/show.tsx:22 | the words hold every non-space character in order, so runs of spaces lose no text |
| Text.JoinSplit | calssroom-frontend/src/pages/classes/show.tsx:22 | joining the pieces of `split` restores the string |
| Text.SplitJoin | calssroom-frontend/src/pages/classes/show.tsx:22 | splitting a join of space-free pieces gives them back |
| Text.WordsOfJoin | calssroom-frontend/src/pages/classes/show.tsx:132-133 | words written with single spaces come back as the same words |
| Text.UpperChar | calssroom-frontend/src/pages/classes/show.tsx:24 | `toUpperCase` on ASCII: lower-case letters move to upper case, everything else is unchanged |
| ClassShow.GetInitials | calssroom-frontend/src/pages/classes/show.tsx:21-28 | at most two characters, none a lower-case letter; empty iff the trimmed name has no words; one word gives its first letter; otherwise the first letters of the first and last words |
| ClassShow.BlankNameNoInitials | calssroom-frontend/src/pages/classes/show.tsx:21-23 | a missing name, and a name of whitespace only, give "" |
| ClassShow.InitialsOfWords | calssroom-frontend/src/pages/classes/show.tsx:24-27 | for a name written as words separated by single spaces: the first and last words' first letters, whatever lies between |
| ClassShow.TeacherName | calssroom-frontend/src/pages/classes/show.tsx:130 | "Unknown" without a teacher, the teacher's name otherwise |
| ClassShow.TeacherInitials | calssroom-frontend/src/pages/classes/show.tsx:131-136 | min(2, number of words) characters, the i-th being the upper-cased first letter of the i-th word |
| ClassShow.TeacherInitialsOfWords | calssroom-frontend/src/pages/classes/show.tsx:131-136 | for single-space-separated words: the first letters of the first two words |
| ClassShow.InitialsDisagree | calssroom-frontend/src/pages/classes/show.tsx:25-27 | for three words whose 2nd and 3rd initials differ, the avatar initials and the teacher initials differ |
| ClassShow.PlaceholderText | calssroom-frontend/src/pages/classes/show.tsx:138-140 | never empty: the initials when there are any, "NA" otherwise |
| ClassShow.NoTeacher | calssroom-frontend/src/pages/classes/show.tsx:130-140 | a class without a teacher gets initials "U" and placeholder "U" |
| ClassShow.BlankTeacherNamePlaceholder | calssroom-frontend/src/pages/classes/show.tsx:131-140 | a teacher whose name is only spaces gets the placeholder "NA" |
| Dashboard.TopFive | calssroom-frontend/src/pages/dashboard.tsx:127-129 | sort a copy descending and keep five: length min(5, n), non-increasing, a sub-multiset of the input, and nothing left out is larger than anything kept |
| Dashboard.TopDepartments | calssroom-frontend/src/pages/dashboard.tsx:126-134 | length min(5, n); entry i has `departmentId` i and is an input row; non-increasing `totalSubjects`; entry i is the i-th of `TopFive` |
| Dashboard.TopSubjects | calssroom-frontend/src/pages/dashboard.tsx:136-144 | the same for `totalClasses` and `subjectId` |
| Dashboard.DroppedDepartmentsAreSmaller | calssroom-frontend/src/pages/dashboard.tsx:127-133 | a department not ranked has no more subjects than any ranked one |
| Dashboard.SmallListsRankEverything | calssroom-frontend/src/pages/dashboard.tsx:127-129 | with five entries or fewer, every entry is ranked |
| Dashboard.CountOr0 | calssroom-frontend/src/pages/dashboard.tsx:150 | `overviewCount?.field ?? 0`: 0 when the overview or the field is missing, else the field |
| Dashboard.Kpis | calssroom-frontend/src/pages/dashboard.tsx:146-186 | six cards labelled Total Users, Teachers, Admins, Subjects, Departments, Classes in that order; every value 0 before the overview loads, else the matching count or 0; no two cards share the label they are keyed by (line 205) |
| Dashboard.RoleColor | calssroom-frontend/src/pages/dashboard.tsx:242 | every role gets one of the four palette colours |
| Dashboard.RoleColorCycles | calssroom-frontend/src/pages/dashboard.tsx:260 | colours repeat every four entries |
| Dashboard.NearbyRolesDiffer | calssroom-frontend/src/pages/dashboard.tsx:74 | any four consecutive role entries get four different colours |

## Left out

- I/O: the database, Drizzle, Express, HTTP plumbing and React rendering. Tables are sequences; a handler is a function from tables and a request to a response.
- The 500 paths (thrown errors, a failed or empty insert, enrollments.ts lines 102-111 and 174-183), because they depend on failures of the database, which is not modelled.
- The race between concurrent admissions, because concurrency is out of scope. Only sequential runs are proved (`RunPreserves`, `FillClass`).
- The error message texts, because only the outcome and its status are modelled (`Enrollments.Status`).
- Admission does not check that the student's user has role "student"; any existing user id passes. The model keeps this.
- `classId` is modelled as an optional integer. A JSON string id such as "5", and a NaN id, are not modelled.
- Text.ILikeContains: the model is a plain substring test after ASCII lower-casing. PostgreSQL ILIKE differs in three ways that are not modelled: `%` and `_` in the term are wildcards; backslash is the default escape character; and case folding follows the database locale, so 'É' and 'é' match there but not in the model.
- Text.UpperChar: case mapping covers ASCII letters only. Unicode case mapping, multi-character upper cases (such as "ß"), and UTF-16 surrogates are not modelled.
- JsInt.ParseInt: `parseInt` returns a double, and the model returns an exact unbounded integer. Past 2^53 the two differ: "9007199254740993" parses to 9007199254740992 in JavaScript. Text of more than about 309 digits parses to `Infinity` there.
- Paging.CurrentPage, Paging.Offset, Paging.Respond: PostgreSQL rejects an OFFSET above 2^63 - 1 ("bigint out of range"), and the route's catch block turns that into a 500 (departments.ts lines 66-69, and likewise in subjects.ts and users.ts). So any page whose offset `(page - 1) * limit` exceeds 2^63 - 1 fails; with the default limit 10, that is any page of about 19 digits or more, such as `?page=1000000000000000000`. Past about 309 digits the offset is `Infinity` in JavaScript and fails too. The model has no 64-bit bound: it serves an empty page with the exact offset. The same applies to `Math.ceil` on doubles, which the model replaces by integer ceiling division.
- Array-valued query parameters (`?search=a&search=b`), because Express's parsing of them is library behaviour.
- An invalid `role` value becomes a database enum error (500), which is not modelled.
- `count(*)` and `count(...)` results are PostgreSQL bigints and may reach JavaScript as text. This covers `total` and the per-department `totalSubjects` (departments.ts line 47). Both are modelled as numbers. For ranking this makes no difference, because the subtraction in dashboard.tsx line 128 coerces the text to a number.
- The KPI icons and accent classes, chart rendering, and the `encodeURIComponent` step and URL prefix of the placeholder image.
- Sorting.SortDesc: stability (equal keys keep their input order) holds by construction of the insertion sort, but is not stated or proved. SQL leaves the order of rows with equal timestamps unspecified.
- ListQuery.EveryMatchListed, DepartmentsRoute.EveryMatchListed, SubjectsRoute.EveryMatchListed, UsersRoute.EveryMatchListed: these hold for one fixed order of the rows, the model's stable sort, shared by every request. PostgreSQL may order rows with equal `createdAt` differently in queries with different OFFSETs. Rows inserted in one transaction share `now()`, so ties are realistic. A tied row can then be skipped or shown twice across pages, and these lemmas do not cover that.
- The subjects query orders by `subjects.createdAT` (subjects.ts line 62), while the other routes use `createdAt` and the frontend's subject type has `createdAt` (dashboard.tsx line 33). This is possibly a misspelt column in the source. The schema file is not part of this model, so the model takes the ordering key to be the subject's creation time.
- The chart-data defaults `charts?.subjectsByDepartment ?? []` (dashboard.tsx lines 92-98) are the empty list passed to `TopDepartments` and `TopSubjects`.
- The frontend copies the list with `[...list]` before sorting, so the input is never mutated. Dafny sequences are immutable, so no separate statement is needed.
- Enrollments.JoinIsAdmitById: requires unique invite codes, which the source does not enforce: classes.ts line 13 draws each code with `Math.random` and never checks it against existing codes. Enrollments.JoinTakesFirstOwner covers repeated codes, taking the first owner in table order. The database may return a different owner, because the query has no ORDER BY.

=== FILE: classshow.dfy ===
/** The string helpers of the class details page: the avatar initials of a
    student's name, the teacher's display name, the teacher's initials and
    the text of the placeholder image. */
module ClassShow {
  import opened Common
  import opened Schema
  import Text

  /** Text shown when the class has no teacher. */
  const UnknownTeacher: string := "Unknown"
  /** Placeholder text when the teacher has no initials. */
  const NoInitials: string := "NA"

  /** `getInitials(name = "")`: nothing for a blank name, the first letter
      of a single word, otherwise the first letters of the first and the
      last word; upper-cased. Only spaces separate words, after `trim`. */
  function GetInitials(name: Option<string>): (r: string)
    ensures |r| <= 2
    ensures forall i :: 0 <= i < |r| ==> !('a' <= r[i] <= 'z')
    ensures var ws := Text.Words(Text.Trim(name.Coalesce("")));
            (r == "" <==> |ws| == 0) &&
            (|ws| == 1 ==> r == [Text.UpperChar(ws[0][0])]) &&
            (|ws| >= 2 ==> r == [Text.UpperChar(ws[0][0]), Text.UpperChar(ws[|ws| - 1][0])])
  {
    FirstAndLast(Text.Words(Text.Trim(name.Coalesce(""))))
  }

  /** The initials of a list of non-empty words. */
  function FirstAndLast(parts: seq<string>): (r: string)
    requires forall i :: 0 <= i < |parts| ==> |parts[i]| > 0
    ensures |r| <= 2
    ensures forall i :: 0 <= i < |r| ==> !('a' <= r[i] <= 'z')
    ensures (r == "" <==> |parts| == 0) &&
            (|parts| == 1 ==> r == [Text.UpperChar(parts[0][0])]) &&
            (|parts| >= 2 ==> r == [Text.UpperChar(parts[0][0]), Text.UpperChar(parts[|parts| - 1][0])])
  {
    if |parts| == 0 then ""
    else if |parts| == 1 then Text.Upper([parts[0][0]])
    else Text.Upper([parts[0][0], parts[|parts| - 1][0]])
  }

  /** A missing name, and a name of whitespace only, have no initials. */
  lemma BlankNameNoInitials(name: string)
    requires forall i :: 0 <= i < |name| ==> Text.IsJsSpace(name[i])
    ensures GetInitials(None) == "" && GetInitials(Some(name)) == ""
  {
    Text.TrimBlank(name);
    Text.WordsOfSpaces("");
  }

  /** Words written with single spaces: the initials are the first letters
      of the first and last word (just the first for one word), whatever
      lies in between. */
  lemma InitialsOfWords(ws: seq<string>)
    requires |ws| >= 1
    requires forall i :: 0 <= i < |ws| ==> |ws[i]| > 0 && ' ' !in ws[i]
    requires !Text.IsJsSpace(ws[0][0]) && !Text.IsJsSpace(ws[|ws| - 1][|ws[|ws| - 1]| - 1])
    ensures GetInitials(Some(Text.Join(ws, ' '))) ==
            if |ws| == 1 then [Text.UpperChar(ws[0][0])]
            else [Text.UpperChar(ws[0][0]), Text.UpperChar(ws[|ws| - 1][0])]
  {
    var j := Text.Join(ws, ' ');
    Text.JoinEnds(ws, ' ');
    Text.TrimKeeps(j);
    Text.WordsOfJoin(ws);
    assert Text.Words(Text.Trim(Some(j).Coalesce(""))) == ws;
  }

  /** `classDetails.teacher?.name ?? "Unknown"`. */
  function TeacherName(teacher: Option<User>): (n: string)
    ensures teacher.None? ==> n == UnknownTeacher
    ensures teacher.Some? ==> n == teacher.value.name
  {
    match teacher
    case Some(u) => u.name
    case None => UnknownTeacher
  }

  /** `teacherName.split(" ").filter(Boolean).slice(0, 2)
      .map(part => part[0]?.toUpperCase()).join("")`: the first letters
      of the first two words (not the first and last), without a `trim`. */
  function TeacherInitials(name: string): (r: string)
    ensures var ws := Text.Words(name);
            |r| == (if |ws| < 2 then |ws| else 2) &&
            forall i :: 0 <= i < |r| ==> r[i] == Text.UpperChar(ws[i][0])
  {
    FirstTwo(Text.Words(name))
  }

  /** `slice(0, 2).map(part => part[0]?.toUpperCase()).join("")` on a list
      of non-empty words. */
  function FirstTwo(parts: seq<string>): (r: string)
    requires forall i :: 0 <= i < |parts| ==> |parts[i]| > 0
    ensures |r| == (if |parts| < 2 then |parts| else 2)
    ensures forall i :: 0 <= i < |r| ==> r[i] == Text.UpperChar(parts[i][0])
  {
    var firstTwo := if |parts| < 2 then parts else parts[..2];
    var letters := seq(|firstTwo|, i requires 0 <= i < |firstTwo| => Text.Upper([firstTwo[i][0]]));
    Text.ConcatOfLetters(letters);
    Text.Concat(letters)
  }

  /** Teacher initials of words written with single spaces: the first
      letters of the first two words. */
  lemma TeacherInitialsOfWords(ws: seq<string>)
    requires |ws| >= 1
    requires forall i :: 0 <= i < |ws| ==> |ws[i]| > 0 && ' ' !in ws[i]
    ensures TeacherInitials(Text.Join(ws, ' ')) ==
            if |ws| == 1 then [Text.UpperChar(ws[0][0])]
            else [Text.UpperChar(ws[0][0]), Text.UpperChar(ws[1][0])]
  {
    Text.WordsOfJoin(ws);
  }

  /** The two initials disagree on a three-word name whose second and
      third words start with different letters. */
  lemma InitialsDisagree(a: string, b: string, c: string)
    requires |a| > 0 && |b| > 0 && |c| > 0 && ' ' !in a && ' ' !in b && ' ' !in c
    requires !Text.IsJsSpace(a[0]) && !Text.IsJsSpace(c[|c| - 1])
    requires Text.UpperChar(b[0]) != Text.UpperChar(c[0])
    ensures GetInitials(Some(Text.Join([a, b, c], ' '))) != TeacherInitials(Text.Join([a, b, c], ' '))
  {
    InitialsOfWords([a, b, c]);
    TeacherInitialsOfWords([a, b, c]);
  }

  /** `teachersInitials || "NA"`: the text of the placeholder image, which
      is never empty. */
  function PlaceholderText(initials: string): (t: string)
    ensures |t| > 0
    ensures |initials| > 0 ==> t == initials
    ensures |initials| == 0 ==> t == NoInitials
  {
    if |initials| > 0 then initials else NoInitials
  }

  /** A class without a teacher shows "Unknown" and the initial "U". */
  lemma NoTeacher()
    ensures TeacherInitials(TeacherName(None)) == "U"
    ensures PlaceholderText(TeacherInitials(TeacherName(None))) == "U"
  {
    TeacherInitialsOfWords([UnknownTeacher]);
    assert Text.Join([UnknownTeacher], ' ') == UnknownTeacher;
  }

  /** A teacher whose name has no words gets the placeholder "NA". */
  lemma BlankTeacherNamePlaceholder(u: User)
    requires forall i :: 0 <= i < |u.name| ==> u.name[i] == ' '
    ensures PlaceholderText(TeacherInitials(TeacherName(Some(u)))) == NoInitials
  {
    Text.WordsOfSpaces(u.name);
  }
}

=== FILE: common.dfy ===
/** Small shared vocabulary: an optional value and order-preserving
    selection over sequences, used by every route and page model. */
module Common {

  /** A value that may be absent: a missing request field, a SQL NULL,
      a LEFT JOIN that found no partner row. */
  datatype Option<T> = None | Some(value: T) {

    /** JavaScript's nullish coalescing `x ?? fallback`. */
    function Coalesce(fallback: T): (r: T)
      ensures this.Some? ==> r == value
      ensures this.None? ==> r == fallback
    {
      if this.Some? then value else fallback
    }
  }

  /** The identity view: a route that returns its selected rows as they are. */
  function AsIs<T>(x: T): T { x }

  /** JavaScript truthiness of an optional string: present and non-empty. */
  predicate Truthy(o: Option<string>) {
    o.Some? && |o.value| > 0
  }

  /** The elements of `s` that satisfy `p`, in their original order.
      Its multiset is exactly the matching part of `s`'s multiset. */
  function Filter<T(!new)>(s: seq<T>, p: T -> bool): (r: seq<T>)
    ensures |r| <= |s|
    ensures forall i :: 0 <= i < |r| ==> p(r[i])
    ensures forall x :: multiset(r)[x] == if p(x) then multiset(s)[x] else 0
  {
    if |s| == 0 then []
    else
      var rest := Filter(s[..|s| - 1], p);
      assert s == s[..|s| - 1] + [s[|s| - 1]];
      if p(s[|s| - 1]) then rest + [s[|s| - 1]] else rest
  }

  /** Membership in a filtered sequence, read off the multiset clause. */
  lemma FilterMembership<T(!new)>(s: seq<T>, p: T -> bool, x: T)
    ensures x in Filter(s, p) <==> x in s && p(x)
  {
    var r := Filter(s, p);
    assert x in r <==> multiset(r)[x] > 0;
    assert x in s <==> multiset(s)[x] > 0;
  }

  /** Filtering an extended sequence extends the result by the new element
      exactly when it matches. */
  lemma FilterAppend<T(!new)>(s: seq<T>, x: T, p: T -> bool)
    ensures Filter(s + [x], p) == if p(x) then Filter(s, p) + [x] else Filter(s, p)
  {
    assert (s + [x])[..|s|] == s;
  }

  /** Filtering with a predicate that holds everywhere keeps every element. */
  lemma {:induction false} FilterAll<T(!new)>(s: seq<T>, p: T -> bool)
    requires forall i :: 0 <= i < |s| ==> p(s[i])
    ensures Filter(s, p) == s
  {
    if |s| > 0 {
      FilterAll(s[..|s| - 1], p);
      assert s == s[..|s| - 1] + [s[|s| - 1]];
    }
  }

  /** Filtering twice keeps what satisfies both predicates: a where clause
      `a AND b` selects what `b` selects from the rows `a` selects. */
  lemma {:induction false} FilterFilter<T(!new)>(s: seq<T>, p: T -> bool, q: T -> bool, both: T -> bool)
    requires forall x :: both(x) == (p(x) && q(x))
    ensures Filter(Filter(s, p), q) == Filter(s, both)
  {
    if |s| > 0 {
      FilterFilter(s[..|s| - 1], p, q, both);
      FilterFilterStep(s, p, q, both);
    }
  }

  lemma FilterFilterStep<T(!new)>(s: seq<T>, p: T -> bool, q: T -> bool, both: T -> bool)
    requires |s| > 0 && both(s[|s| - 1]) == (p(s[|s| - 1]) && q(s[|s| - 1]))
    requires Filter(Filter(s[..|s| - 1], p), q) == Filter(s[..|s| - 1], both)
    ensures Filter(Filter(s, p), q) == Filter(s, both)
  {
    var init, x := s[..|s| - 1], s[|s| - 1];
    var fp := Filter(init, p);
    assert Filter(s, both) == if both(x) then Filter(init, both) + [x] else Filter(init, both);
    if p(x) {
      assert Filter(s, p) == fp + [x];
      FilterAppend(fp, x, q);
    } else {
      assert Filter(s, p) == fp;
    }
  }

  /** The projection of each element, in order: the view a route applies
      to each selected row, or the key column of a table. */
  function MapRows<T, R>(rows: seq<T>, view: T -> R): (r: seq<R>)
    ensures |r| == |rows|
    ensures forall i :: 0 <= i < |rows| ==> r[i] == view(rows[i])
  {
    seq(|rows|, i requires 0 <= i < |rows| => view(rows[i]))
  }

  /** Selecting the elements with key `v` keeps as many elements as `v`
      occurs among the keys: `count(*) ... where key = v`. */
  lemma {:induction false} FilterCountsKey<T(!new)>(s: seq<T>, p: T -> bool, key: T -> int, v: int)
    requires forall x :: p(x) == (key(x) == v)
    ensures |Filter(s, p)| == multiset(MapRows(s, key))[v]
  {
    if |s| > 0 {
      var init, x := s[..|s| - 1], s[|s| - 1];
      FilterCountsKey(init, p, key, v);
      assert s == init + [x];
      FilterAppend(init, x, p);
      KeysStep(init, x, key, v);
    }
  }

  lemma KeysStep<T>(init: seq<T>, x: T, key: T -> int, v: int)
    ensures multiset(MapRows(init + [x], key))[v] ==
            multiset(MapRows(init, key))[v] + if key(x) == v then 1 else 0
  {
    var ks := MapRows(init, key);
    assert MapRows(init + [x], key) == ks + [key(x)];
    assert multiset(ks + [key(x)]) == multiset(ks) + multiset{key(x)};
  }

  /** The smaller of two integers. */
  function Min(a: int, b: int): (m: int)
    ensures m <= a && m <= b
    ensures m == a || m == b
  {
    if a <= b then a else b
  }

  /** The first element of `s` satisfying `p`, as a SQL `select ... where`
      followed by taking the first row of the result. */
  function First<T(==)>(s: seq<T>, p: T -> bool): (r: Option<T>)
    ensures r.None? <==> forall i :: 0 <= i < |s| ==> !p(s[i])
    ensures r.Some? ==> exists k :: 0 <= k < |s| && s[k] == r.value && p(s[k]) &&
                                    forall i :: 0 <= i < k ==> !p(s[i])
  {
    if |s| == 0 then None
    else if p(s[0]) then Some(s[0])
    else
      var r := First(s[1..], p);
      if r.Some? then
        var k :| 0 <= k < |s[1..]| && s[1..][k] == r.value && p(s[1..][k]) &&
                  forall i :: 0 <= i < k ==> !p(s[1..][i]);
        assert s[k + 1] == r.value;
        assert forall i :: 0 <= i < k + 1 ==> !p(s[i]) by {
          forall i | 0 <= i < k + 1 ensures !p(s[i]) {
            if i > 0 { assert s[i] == s[1..][i - 1]; }
          }
        }
        r
      else
        r
  }

  /** What `First` finds is an element that satisfies `p`. */
  lemma FoundIn<T>(s: seq<T>, p: T -> bool)
    requires First(s, p).Some?
    ensures First(s, p).value in s && p(First(s, p).value)
  {
  }

  /** When at most one element can satisfy `p`, `First` finds exactly that one. */
  lemma FirstOfUnique<T>(s: seq<T>, p: T -> bool, k: nat)
    requires k < |s| && p(s[k])
    requires forall i, j :: 0 <= i < |s| && 0 <= j < |s| && p(s[i]) && p(s[j]) ==> s[i] == s[j]
    ensures First(s, p) == Some(s[k])
  {
  }
}

=== FILE: dashboard.dfy ===
/** The derived data of the dashboard page: the two "top 5" rankings, the
    six overview KPIs and the colour of each role in the users-by-role
    chart. */
module Dashboard {
  import opened Common
  import Sorting

  /** How many entries a ranking keeps. */
  const TopCount: nat := 5

  /** The first `TopCount` entries after a stable sort by `key`, largest
      first: `[...items].sort((a, b) => key(b) - key(a)).slice(0, 5)`.
      Nothing outside the top is larger than anything inside it. */
  function TopFive<T>(items: seq<T>, key: T -> int): (r: seq<T>)
    ensures |r| == Min(TopCount, |items|)
    ensures Sorting.SortedDesc(r, key)
    ensures multiset(r) <= multiset(items)
    ensures forall x, i :: x in multiset(items) - multiset(r) && 0 <= i < |r| ==> key(r[i]) >= key(x)
  {
    var sorted := Sorting.SortDesc(items, key);
    var m := Min(TopCount, |items|);
    TopSplit(items, sorted, key, m);
    sorted[..m]
  }

  /** Cutting a sorted permutation of `items`: the front part is sorted, is
      part of `items`, and dominates whatever of `items` it leaves out. */
  lemma TopSplit<T>(items: seq<T>, sorted: seq<T>, key: T -> int, m: nat)
    requires m <= |sorted| && Sorting.SortedDesc(sorted, key)
    requires multiset(sorted) == multiset(items)
    ensures Sorting.SortedDesc(sorted[..m], key)
    ensures multiset(sorted[..m]) <= multiset(items)
    ensures forall x, i :: x in multiset(items) - multiset(sorted[..m]) && 0 <= i < m ==>
              key(sorted[..m][i]) >= key(x)
  {
    assert sorted == sorted[..m] + sorted[m..];
    assert multiset(items) - multiset(sorted[..m]) == multiset(sorted[m..]);
    forall x, i | x in multiset(sorted[m..]) && 0 <= i < m ensures key(sorted[..m][i]) >= key(x) {
      assert x in sorted[m..];
      var j :| 0 <= j < |sorted[m..]| && sorted[m..][j] == x;
      assert sorted[m + j] == x;
    }
  }

  /** Every ranked entry is an input entry. */
  lemma TopFiveMembers<T>(items: seq<T>, key: T -> int)
    ensures forall i :: 0 <= i < |TopFive(items, key)| ==> TopFive(items, key)[i] in items
  {
    var top := TopFive(items, key);
    forall i | 0 <= i < |top| ensures top[i] in items {
      assert top[i] in multiset(top);
    }
  }

  /** One row of the subjects-by-department chart data. */
  datatype DepartmentStat = DepartmentStat(departmentName: string, totalSubjects: int)
  /** A `topDepartments` entry: the row plus its rank as `departmentId`. */
  datatype RankedDepartment = RankedDepartment(departmentName: string, totalSubjects: int, departmentId: nat)

  /** One row of the classes-by-subject chart data. */
  datatype SubjectStat = SubjectStat(subjectName: string, totalClasses: int)
  /** A `topSubjects` entry: the row plus its rank as `subjectId`. */
  datatype RankedSubject = RankedSubject(subjectName: string, totalClasses: int, subjectId: nat)

  function TotalSubjects(d: DepartmentStat): int { d.totalSubjects }
  function TotalClasses(s: SubjectStat): int { s.totalClasses }

  function DepartmentOf(r: RankedDepartment): DepartmentStat {
    DepartmentStat(r.departmentName, r.totalSubjects)
  }

  function SubjectOf(r: RankedSubject): SubjectStat {
    SubjectStat(r.subjectName, r.totalClasses)
  }

  /** `topDepartments`: the five departments with most subjects, each
      carrying its position in the ranking as `departmentId`. */
  function TopDepartments(stats: seq<DepartmentStat>): (r: seq<RankedDepartment>)
    ensures |r| == Min(TopCount, |stats|)
    ensures forall i :: 0 <= i < |r| ==> r[i].departmentId == i && DepartmentOf(r[i]) in stats
    ensures forall i, j :: 0 <= i < j < |r| ==> r[i].totalSubjects >= r[j].totalSubjects
    ensures forall i :: 0 <= i < |r| ==> DepartmentOf(r[i]) == TopFive(stats, TotalSubjects)[i]
  {
    var top := TopFive(stats, TotalSubjects);
    TopFiveMembers(stats, TotalSubjects);
    seq(|top|, i requires 0 <= i < |top| => RankedDepartment(top[i].departmentName, top[i].totalSubjects, i))
  }

  /** `topSubjects`: the five subjects with most classes, each carrying its
      position in the ranking as `subjectId`. */
  function TopSubjects(stats: seq<SubjectStat>): (r: seq<RankedSubject>)
    ensures |r| == Min(TopCount, |stats|)
    ensures forall i :: 0 <= i < |r| ==> r[i].subjectId == i && SubjectOf(r[i]) in stats
    ensures forall i, j :: 0 <= i < j < |r| ==> r[i].totalClasses >= r[j].totalClasses
    ensures forall i :: 0 <= i < |r| ==> SubjectOf(r[i]) == TopFive(stats, TotalClasses)[i]
  {
    var top := TopFive(stats, TotalClasses);
    TopFiveMembers(stats, TotalClasses);
    seq(|top|, i requires 0 <= i < |top| => RankedSubject(top[i].subjectName, top[i].totalClasses, i))
  }

  /** No department left out of `topDepartments` has more subjects than
      one that was kept. */
  lemma DroppedDepartmentsAreSmaller(stats: seq<DepartmentStat>, d: DepartmentStat)
    requires d in multiset(stats) - multiset(TopFive(stats, TotalSubjects))
    ensures forall i :: 0 <= i < |TopDepartments(stats)| ==>
              TopDepartments(stats)[i].totalSubjects >= d.totalSubjects
  {
    var top := TopFive(stats, TotalSubjects);
    var r := TopDepartments(stats);
    forall i | 0 <= i < |r| ensures r[i].totalSubjects >= d.totalSubjects {
      assert r[i].totalSubjects == TotalSubjects(top[i]);
    }
  }

  /** With five departments or fewer every one of them is ranked. */
  lemma SmallListsRankEverything(stats: seq<DepartmentStat>)
    requires |stats| <= TopCount
    ensures multiset(TopFive(stats, TotalSubjects)) == multiset(stats)
  {
    var sorted := Sorting.SortDesc(stats, TotalSubjects);
    assert TopFive(stats, TotalSubjects) == sorted[..|stats|];
    assert sorted[..|sorted|] == sorted;
  }

  /** The `stats/overview` counts; a field may be missing from the reply. */
  datatype Overview = Overview(
    users: Option<int>,
    teachers: Option<int>,
    admins: Option<int>,
    subjects: Option<int>,
    departments: Option<int>,
    classes: Option<int>)

  /** One overview card: its `label` (here `caption`, `label` being a Dafny keyword) and the number shown. */
  datatype Kpi = Kpi(caption: string, value: int)

  const KpiLabels: seq<string> := ["Total Users", "Teachers", "Admins", "Subjects", "Departments", "Classes"]

  /** `overviewCount?.field ?? 0`. */
  function CountOr0(overview: Option<Overview>, field: Overview -> Option<int>): (v: int)
    ensures overview.None? ==> v == 0
    ensures overview.Some? && field(overview.value).None? ==> v == 0
    ensures overview.Some? && field(overview.value).Some? ==> v == field(overview.value).value
  {
    match overview
    case None => 0
    case Some(o) => field(o).Coalesce(0)
  }

  function Fields(): seq<Overview -> Option<int>> {
    [(o: Overview) => o.users, (o: Overview) => o.teachers, (o: Overview) => o.admins,
     (o: Overview) => o.subjects, (o: Overview) => o.departments, (o: Overview) => o.classes]
  }

  /** `kpis`: six cards in a fixed order; every value is 0 until the
      overview has loaded. The cards are rendered keyed by their label, so
      no two share one. */
  function Kpis(overview: Option<Overview>): (r: seq<Kpi>)
    ensures |r| == 6
    ensures forall i :: 0 <= i < 6 ==> r[i].caption == KpiLabels[i]
    ensures forall i, j :: 0 <= i < j < |r| ==> r[i].caption != r[j].caption
    ensures overview.None? ==> forall i :: 0 <= i < 6 ==> r[i].value == 0
    ensures overview.Some? ==>
              var o := overview.value;
              r[0].value == o.users.Coalesce(0) && r[1].value == o.teachers.Coalesce(0) &&
              r[2].value == o.admins.Coalesce(0) && r[3].value == o.subjects.Coalesce(0) &&
              r[4].value == o.departments.Coalesce(0) && r[5].value == o.classes.Coalesce(0)
  {
    var fs := Fields();
    seq(6, i requires 0 <= i < 6 => Kpi(KpiLabels[i], CountOr0(overview, fs[i])))
  }

  /** The colours of the users-by-role chart, cycled through by position. */
  const RoleColors: seq<string> := ["#f97316", "#0ea5e9", "#22c55e", "#a855f7"]

  /** `roleColors[index % roleColors.length]`. */
  function RoleColor(index: nat): (c: string)
    ensures c in RoleColors
  {
    RoleColors[index % |RoleColors|]
  }

  /** The colours repeat every four entries... */
  lemma RoleColorCycles(index: nat)
    ensures RoleColor(index + 4) == RoleColor(index)
  {
  }

  /** ...and any four consecutive entries get four different colours. */
  lemma NearbyRolesDiffer(i: nat, j: nat)
    requires i < j < i + 4
    ensures RoleColor(i) != RoleColor(j)
  {
    var a := i % 4;
    var b := j % 4;
    assert b == (a + (j - i)) % 4;
  }
}

=== FILE: departments.dfy ===
/** `GET /departments`: departments whose name or code contains the search
    term (ignoring case), newest first, one page at a time, each with the
    number of subjects that belong to it. */
module DepartmentsRoute {
  import opened Common
  import opened Schema
  import Text
  import Paging
  import ListQuery
  import JsInt

  /** The query string: `search`, `page` and `limit`, each possibly absent. */
  datatype Query = Query(search: Option<string>, page: Option<string>, limit: Option<string>)

  /** A department with its `totalSubjects` aggregate. */
  datatype DepartmentRow = DepartmentRow(department: Department, totalSubjects: nat)

  /** The where clause: no condition without a search term, otherwise
      `name ILIKE %search%` or `code ILIKE %search%`. */
  predicate Matches(search: Option<string>, d: Department) {
    !Truthy(search) ||
    Text.ILikeContains(d.name, search.value) || Text.ILikeContains(d.code, search.value)
  }

  function Where(search: Option<string>): Department -> bool {
    (d: Department) => Matches(search, d)
  }

  function BelongsTo(departmentId: int): Subject -> bool {
    (s: Subject) => s.departmentId == departmentId
  }

  /** The department id each subject references. */
  function SubjectDepartment(s: Subject): int { s.departmentId }

  /** `count(subjects.id)` over the LEFT JOIN, grouped by department: the
      number of subjects that reference it, zero when none does. */
  function SubjectCount(subjects: seq<Subject>, departmentId: int): (n: nat)
    ensures n == multiset(MapRows(subjects, SubjectDepartment))[departmentId]
    ensures n <= |subjects|
    ensures n == 0 <==> forall i :: 0 <= i < |subjects| ==> subjects[i].departmentId != departmentId
  {
    OwnSubjectsFound(subjects, departmentId);
    FilterCountsKey(subjects, BelongsTo(departmentId), SubjectDepartment, departmentId);
    |Filter(subjects, BelongsTo(departmentId))|
  }

  lemma OwnSubjectsFound(subjects: seq<Subject>, departmentId: int)
    ensures |Filter(subjects, BelongsTo(departmentId))| == 0 <==>
            forall i :: 0 <= i < |subjects| ==> subjects[i].departmentId != departmentId
  {
    if i :| 0 <= i < |subjects| && subjects[i].departmentId == departmentId {
      FilterMembership(subjects, BelongsTo(departmentId), subjects[i]);
    }
  }

  function WithSubjectCount(subjects: seq<Subject>): Department -> DepartmentRow {
    (d: Department) => DepartmentRow(d, SubjectCount(subjects, d.id))
  }

  /** The handler's 200 response. */
  function ListDepartments(departments: seq<Department>, subjects: seq<Subject>, q: Query)
    : (r: Paging.Listing<DepartmentRow>)
    ensures r.pagination.page >= 1 && 1 <= r.pagination.limit <= Paging.MaxLimit
    ensures r.pagination.total == |Filter(departments, Where(q.search))|
    ensures r.pagination.totalPages == Paging.CeilDiv(r.pagination.total, r.pagination.limit)
    ensures |r.data| <= r.pagination.limit
    ensures forall k :: 0 <= k < |r.data| ==>
              r.data[k].department in departments && Matches(q.search, r.data[k].department) &&
              r.data[k].totalSubjects == SubjectCount(subjects, r.data[k].department.id)
    ensures forall i, j :: 0 <= i < j < |r.data| ==>
              r.data[i].department.createdAt >= r.data[j].department.createdAt
    ensures r.data == MapRows(
                        Paging.PageOf(ListQuery.Ordered(departments, Where(q.search), DepartmentCreatedAt),
                                      r.pagination.page, r.pagination.limit),
                        WithSubjectCount(subjects))
  {
    ListQuery.PageRows(departments, Where(q.search), DepartmentCreatedAt, WithSubjectCount(subjects),
                       q.page, q.limit);
    ListQuery.List(departments, Where(q.search), DepartmentCreatedAt, WithSubjectCount(subjects),
                   q.page, q.limit)
  }

  /** Without a search term nothing is filtered: `total` is the table size. */
  lemma NoSearchCountsAll(departments: seq<Department>, subjects: seq<Subject>, q: Query)
    requires !Truthy(q.search)
    ensures ListDepartments(departments, subjects, q).pagination.total == |departments|
  {
    FilterAll(departments, Where(q.search));
  }

  /** The search ignores the case of the term. */
  lemma SearchIgnoresCase(term: string, d: Department)
    ensures Matches(Some(Text.Upper(term)), d) == Matches(Some(term), d)
  {
    Text.ILikeIgnoresCase(d.name, term);
    Text.ILikeIgnoresCase(d.code, term);
  }

  /** Every matching department appears, with its subject count, on some
      page between 1 and `totalPages`. */
  lemma EveryMatchListed(departments: seq<Department>, subjects: seq<Subject>,
                         search: Option<string>, limit: Option<string>, d: Department)
    requires d in departments && Matches(search, d)
    ensures exists p: nat :: 1 <= p &&
              var r := ListDepartments(departments, subjects, Query(search, Some(JsInt.Decimal(p)), limit));
              p <= r.pagination.totalPages &&
              DepartmentRow(d, SubjectCount(subjects, d.id)) in r.data
  {
    ListQuery.EveryMatchListed(departments, Where(search), DepartmentCreatedAt,
                               WithSubjectCount(subjects), limit, d);
    var p: nat :| 1 <= p && ListQuery.Listed(departments, Where(search), DepartmentCreatedAt,
                                             WithSubjectCount(subjects), limit, p,
                                             WithSubjectCount(subjects)(d));
    assert var r := ListDepartments(departments, subjects, Query(search, Some(JsInt.Decimal(p)), limit));
           p <= r.pagination.totalPages &&
           DepartmentRow(d, SubjectCount(subjects, d.id)) in r.data;
  }
}

=== FILE: enrollments.dfy ===
/** The admission rule of `POST /enrollments` (by class id) and
    `POST /enrollments/join` (by invite code): a fixed sequence of checks,
    each of which may end the request, and a single insert when all pass.
    The store is an immutable value; a request maps it to an outcome and
    the store after the request. */
module Enrollments {
  import opened Common
  import opened Schema

  /** The tables the handlers read, the enrollments they write, and the
      next value of the enrollments' serial id column. */
  datatype Store = Store(
    classes: seq<ClassRecord>,
    subjects: seq<Subject>,
    departments: seq<Department>,
    users: seq<User>,
    enrollments: seq<Enrollment>,
    nextId: int)

  /** The JSON body of `POST /`: a numeric `classId` and a `studentId`. */
  datatype EnrollRequest = EnrollRequest(classId: Option<int>, studentId: Option<string>)

  /** The JSON body of `POST /join`. */
  datatype JoinRequest = JoinRequest(inviteCode: Option<string>, studentId: Option<string>)

  /** One row of `getEnrollmentDetails`: the enrollment and whatever the
      chain of LEFT JOINs found (class, its subject, that subject's
      department, and the class's teacher). */
  datatype Details = Details(
    enrollment: Enrollment,
    classRecord: Option<ClassRecord>,
    subject: Option<Subject>,
    department: Option<Department>,
    teacher: Option<User>)

  /** How a request ends. `Created` carries the response's `data` field. */
  datatype Outcome =
    | MissingFields
    | ClassNotFound
    | CapacityReached
    | StudentNotFound
    | AlreadyEnrolled
    | Created(data: Option<Details>)

  /** The HTTP status each outcome is answered with. */
  function Status(o: Outcome): int {
    match o
    case MissingFields => 400
    case ClassNotFound => 404
    case CapacityReached => 409
    case StudentNotFound => 404
    case AlreadyEnrolled => 409
    case Created(_) => 201
  }

  /** JavaScript truthiness of an optional number: present and not 0. */
  predicate TruthyId(o: Option<int>) {
    o.Some? && o.value != 0
  }

  function ClassWithId(id: int): ClassRecord -> bool { (c: ClassRecord) => c.id == id }
  function ClassWithCode(code: string): ClassRecord -> bool { (c: ClassRecord) => c.inviteCode == code }
  function UserWithId(id: string): User -> bool { (u: User) => u.id == id }
  function SubjectWithId(id: int): Subject -> bool { (s: Subject) => s.id == id }
  function EnrollmentWithId(id: int): Enrollment -> bool { (e: Enrollment) => e.id == id }
  function InClass(classId: int): Enrollment -> bool { (e: Enrollment) => e.classId == classId }
  function SamePair(classId: int, studentId: string): Enrollment -> bool {
    (e: Enrollment) => e.classId == classId && e.studentId == studentId
  }

  /** `select count() from enrollments where classId = ...`. */
  function Headcount(enrollments: seq<Enrollment>, classId: int): (n: nat)
    ensures n == multiset(MapRows(enrollments, ClassOf))[classId]
  {
    FilterCountsKey(enrollments, InClass(classId), ClassOf, classId);
    |Filter(enrollments, InClass(classId))|
  }

  /** The class each enrollment belongs to. */
  function ClassOf(e: Enrollment): int { e.classId }

  /** The capacity check: a non-null capacity the current count has
      reached. A null capacity never fills; a capacity of 0 is always full. */
  predicate Full(c: ClassRecord, count: nat) {
    c.capacity.Some? && count >= c.capacity.value
  }

  ghost predicate UserExists(users: seq<User>, id: string) {
    exists j :: 0 <= j < |users| && users[j].id == id
  }

  ghost predicate IsEnrolled(enrollments: seq<Enrollment>, classId: int, studentId: string) {
    exists j :: 0 <= j < |enrollments| &&
      enrollments[j].classId == classId && enrollments[j].studentId == studentId
  }

  /** The store after inserting `(classId, studentId)` with the next serial id. */
  function Inserted(st: Store, classId: int, studentId: string): (st': Store)
    ensures st'.classes == st.classes && st'.subjects == st.subjects &&
            st'.departments == st.departments && st'.users == st.users
    ensures |st'.enrollments| == |st.enrollments| + 1
    ensures st'.enrollments[..|st.enrollments|] == st.enrollments
    ensures st'.enrollments[|st.enrollments|] == Enrollment(st.nextId, classId, studentId)
    ensures st'.nextId > st.nextId
  {
    st.(enrollments := st.enrollments + [Enrollment(st.nextId, classId, studentId)],
        nextId := st.nextId + 1)
  }

  /** `getEnrollmentDetails(id)`: the first row of the enrollment with that
      id LEFT JOINed with its class, the class's subject, the subject's
      department and the class's teacher; `None` when no enrollment has
      that id. */
  function EnrollmentDetails(st: Store, enrollmentId: int): (r: Option<Details>)
    ensures r.None? <==> forall i :: 0 <= i < |st.enrollments| ==> st.enrollments[i].id != enrollmentId
    ensures r.Some? ==> r.value.enrollment in st.enrollments && r.value.enrollment.id == enrollmentId
    ensures r.Some? ==> ClassJoined(st, r.value) && SubjectJoined(st, r.value) &&
                        DepartmentJoined(st, r.value) && TeacherJoined(st, r.value)
  {
    match First(st.enrollments, EnrollmentWithId(enrollmentId))
    case None => None
    case Some(e) =>
      var c := First(st.classes, ClassWithId(e.classId));
      var s := if c.Some? then First(st.subjects, SubjectWithId(c.value.subjectId)) else None;
      var d := if s.Some? then First(st.departments, DepartmentWithId(s.value.departmentId)) else None;
      var t := if c.Some? then First(st.users, UserWithId(c.value.teacherId)) else None;
      Some(Details(e, c, s, d, t))
  }

  /** The class column group holds the enrollment's class, or is null
      exactly when no class has the enrollment's class id. */
  ghost predicate ClassJoined(st: Store, r: Details) {
    (r.classRecord.Some? ==> r.classRecord.value in st.classes &&
                             r.classRecord.value.id == r.enrollment.classId) &&
    (r.classRecord.None? <==> forall i :: 0 <= i < |st.classes| ==> st.classes[i].id != r.enrollment.classId)
  }

  /** The subject group is null when the class is, otherwise it holds the
      class's subject or is null exactly when that subject is missing. */
  ghost predicate SubjectJoined(st: Store, r: Details) {
    (r.classRecord.None? ==> r.subject.None?) &&
    (r.subject.Some? ==> r.subject.value in st.subjects &&
                         r.subject.value.id == r.classRecord.value.subjectId) &&
    (r.classRecord.Some? && r.subject.None? ==>
       forall i :: 0 <= i < |st.subjects| ==> st.subjects[i].id != r.classRecord.value.subjectId)
  }

  /** The department group follows the subject group the same way. */
  ghost predicate DepartmentJoined(st: Store, r: Details) {
    (r.subject.None? ==> r.department.None?) &&
    (r.department.Some? ==> r.department.value in st.departments &&
                            r.department.value.id == r.subject.value.departmentId) &&
    (r.subject.Some? && r.department.None? ==>
       forall i :: 0 <= i < |st.departments| ==> st.departments[i].id != r.subject.value.departmentId)
  }

  /** The teacher group is the user whose id is the class's teacher id. */
  ghost predicate TeacherJoined(st: Store, r: Details) {
    (r.classRecord.None? ==> r.teacher.None?) &&
    (r.teacher.Some? ==> r.teacher.value in st.users &&
                         r.teacher.value.id == r.classRecord.value.teacherId) &&
    (r.classRecord.Some? && r.teacher.None? ==>
       forall i :: 0 <= i < |st.users| ==> st.users[i].id != r.classRecord.value.teacherId)
  }

  /** The checks both handlers run once the class is known: capacity, then
      the student, then the duplicate pair, then the insert and the
      details of the new row. */
  function AdmitToClass(st: Store, c: ClassRecord, studentId: string): (res: (Outcome, Store))
    ensures res.0.CapacityReached? <==> Full(c, Headcount(st.enrollments, c.id))
    ensures res.0.StudentNotFound? <==>
              !Full(c, Headcount(st.enrollments, c.id)) && !UserExists(st.users, studentId)
    ensures res.0.AlreadyEnrolled? <==>
              !Full(c, Headcount(st.enrollments, c.id)) && UserExists(st.users, studentId) &&
              IsEnrolled(st.enrollments, c.id, studentId)
    ensures res.0.Created? <==>
              !Full(c, Headcount(st.enrollments, c.id)) && UserExists(st.users, studentId) &&
              !IsEnrolled(st.enrollments, c.id, studentId)
    ensures !res.0.Created? ==> res.1 == st
    ensures res.0.Created? ==> res.1 == Inserted(st, c.id, studentId)
    ensures res.0.Created? ==> res.0.data == EnrollmentDetails(res.1, st.nextId)
  {
    if Full(c, Headcount(st.enrollments, c.id)) then (CapacityReached, st)
    else if First(st.users, UserWithId(studentId)).None? then (StudentNotFound, st)
    else if First(st.enrollments, SamePair(c.id, studentId)).Some? then (AlreadyEnrolled, st)
    else
      var st' := Inserted(st, c.id, studentId);
      (Created(EnrollmentDetails(st', st.nextId)), st')
  }

  /** `POST /`: both fields must be truthy, then the class is looked up by
      id, then the remaining checks. Only a 201 changes the store. */
  function Admit(st: Store, req: EnrollRequest): (res: (Outcome, Store))
    ensures !res.0.Created? ==> res.1 == st
    ensures res.0.Created? ==> TruthyId(req.classId) && Truthy(req.studentId) &&
                               res.1 == Inserted(st, req.classId.value, req.studentId.value)
  {
    if !TruthyId(req.classId) || !Truthy(req.studentId) then (MissingFields, st)
    else
      match First(st.classes, ClassWithId(req.classId.value))
      case None => (ClassNotFound, st)
      case Some(c) => AdmitToClass(st, c, req.studentId.value)
  }

  /** `POST /join`: the same, with the class looked up by invite code. */
  function Join(st: Store, req: JoinRequest): (res: (Outcome, Store))
    ensures !res.0.Created? ==> res.1 == st
    ensures res.0.Created? ==>
              Truthy(req.inviteCode) && Truthy(req.studentId) &&
              (exists i :: 0 <= i < |st.classes| &&
                 st.classes[i].inviteCode == req.inviteCode.value &&
                 res.1 == Inserted(st, st.classes[i].id, req.studentId.value))
  {
    if !Truthy(req.inviteCode) || !Truthy(req.studentId) then (MissingFields, st)
    else
      match First(st.classes, ClassWithCode(req.inviteCode.value))
      case None => (ClassNotFound, st)
      case Some(c) => AdmitToClass(st, c, req.studentId.value)
  }

  /** The primary key of the classes table: no two classes share an id. */
  ghost predicate ClassIds(classes: seq<ClassRecord>) {
    forall i, j :: 0 <= i < j < |classes| ==> classes[i].id != classes[j].id
  }

  /** No two classes share an invite code. The classes table does not
      enforce this: codes are drawn at random and never compared. */
  ghost predicate CodesUnique(classes: seq<ClassRecord>) {
    forall i, j :: 0 <= i < j < |classes| ==> classes[i].inviteCode != classes[j].inviteCode
  }

  /** No class with a capacity holds more enrollments than it. */
  ghost predicate CapacityRespected(classes: seq<ClassRecord>, enrollments: seq<Enrollment>) {
    forall i :: 0 <= i < |classes| && classes[i].capacity.Some? ==>
      Headcount(enrollments, classes[i].id) <= classes[i].capacity.value
  }

  /** A student is enrolled in a class at most once. */
  ghost predicate PairsUnique(enrollments: seq<Enrollment>) {
    forall i, j :: 0 <= i < j < |enrollments| ==>
      enrollments[i].classId != enrollments[j].classId ||
      enrollments[i].studentId != enrollments[j].studentId
  }

  /** The serial counter is ahead of every id handed out so far. */
  ghost predicate IdsBelow(enrollments: seq<Enrollment>, nextId: int) {
    forall i :: 0 <= i < |enrollments| ==> enrollments[i].id < nextId
  }

  ghost predicate Valid(st: Store) {
    ClassIds(st.classes) && CapacityRespected(st.classes, st.enrollments) &&
    PairsUnique(st.enrollments) && IdsBelow(st.enrollments, st.nextId)
  }

  /** Appending an enrollment raises its own class's headcount by one and
      no other. */
  lemma HeadcountAppend(enrollments: seq<Enrollment>, e: Enrollment, classId: int)
    ensures Headcount(enrollments + [e], classId) ==
            Headcount(enrollments, classId) + if e.classId == classId then 1 else 0
  {
    FilterAppend(enrollments, e, InClass(classId));
  }

  /** The insert the checks let through keeps the store valid. */
  lemma InsertKeepsValid(st: Store, k: nat, studentId: string)
    requires Valid(st) && k < |st.classes|
    requires !Full(st.classes[k], Headcount(st.enrollments, st.classes[k].id))
    requires !IsEnrolled(st.enrollments, st.classes[k].id, studentId)
    ensures Valid(Inserted(st, st.classes[k].id, studentId))
  {
    var c := st.classes[k];
    var e := Enrollment(st.nextId, c.id, studentId);
    var st' := Inserted(st, c.id, studentId);
    assert st'.enrollments == st.enrollments + [e];
    CapacityAfterInsert(st.classes, st.enrollments, k, e);
    PairsAfterInsert(st.enrollments, e);
  }

  /** Appending a row for class `k` while it has room keeps every capacity. */
  lemma CapacityAfterInsert(classes: seq<ClassRecord>, enrollments: seq<Enrollment>, k: nat, e: Enrollment)
    requires ClassIds(classes) && CapacityRespected(classes, enrollments)
    requires k < |classes| && e.classId == classes[k].id
    requires !Full(classes[k], Headcount(enrollments, classes[k].id))
    ensures CapacityRespected(classes, enrollments + [e])
  {
    forall i | 0 <= i < |classes| && classes[i].capacity.Some?
      ensures Headcount(enrollments + [e], classes[i].id) <= classes[i].capacity.value
    {
      HeadcountAppend(enrollments, e, classes[i].id);
      if classes[i].id == e.classId {
        assert i == k;
      }
    }
  }

  /** Appending a pair that is not there yet keeps the pairs unique. */
  lemma PairsAfterInsert(enrollments: seq<Enrollment>, e: Enrollment)
    requires PairsUnique(enrollments) && !IsEnrolled(enrollments, e.classId, e.studentId)
    ensures PairsUnique(enrollments + [e])
  {
  }

  /** A request by class id keeps the store valid, whatever it asks. */
  lemma AdmitPreserves(st: Store, req: EnrollRequest)
    requires Valid(st)
    ensures Valid(Admit(st, req).1)
  {
    if TruthyId(req.classId) && Truthy(req.studentId) {
      var found := First(st.classes, ClassWithId(req.classId.value));
      if found.Some? {
        var k :| 0 <= k < |st.classes| && st.classes[k] == found.value;
        if Admit(st, req).0.Created? {
          InsertKeepsValid(st, k, req.studentId.value);
        }
      }
    }
  }

  /** A request by invite code keeps the store valid, whatever it asks. */
  lemma JoinPreserves(st: Store, req: JoinRequest)
    requires Valid(st)
    ensures Valid(Join(st, req).1)
  {
    if Truthy(req.inviteCode) && Truthy(req.studentId) {
      var found := First(st.classes, ClassWithCode(req.inviteCode.value));
      if found.Some? {
        var k :| 0 <= k < |st.classes| && st.classes[k] == found.value;
        if Join(st, req).0.Created? {
          InsertKeepsValid(st, k, req.studentId.value);
        }
      }
    }
  }

  /** Looking up a class by its id finds that class. */
  lemma ClassById(classes: seq<ClassRecord>, i: nat)
    requires ClassIds(classes) && i < |classes|
    ensures First(classes, ClassWithId(classes[i].id)) == Some(classes[i])
  {
    FirstOfUnique(classes, ClassWithId(classes[i].id), i);
  }

  /** Looking up a class by its invite code finds that class. */
  lemma ClassByCode(classes: seq<ClassRecord>, i: nat)
    requires CodesUnique(classes) && i < |classes|
    ensures First(classes, ClassWithCode(classes[i].inviteCode)) == Some(classes[i])
  {
    FirstOfUnique(classes, ClassWithCode(classes[i].inviteCode), i);
  }

  /** How `POST /` decides: missing fields first, then the class lookup,
      then the checks of `AdmitToClass` on the class with the requested id. */
  lemma AdmitOutcome(st: Store, req: EnrollRequest)
    requires ClassIds(st.classes)
    ensures Admit(st, req).0.MissingFields? <==> !TruthyId(req.classId) || !Truthy(req.studentId)
    ensures TruthyId(req.classId) && Truthy(req.studentId) ==>
              (Admit(st, req).0.ClassNotFound? <==>
               forall i :: 0 <= i < |st.classes| ==> st.classes[i].id != req.classId.value)
    ensures TruthyId(req.classId) && Truthy(req.studentId) ==>
              forall i :: 0 <= i < |st.classes| && st.classes[i].id == req.classId.value ==>
                Admit(st, req) == AdmitToClass(st, st.classes[i], req.studentId.value)
  {
    if TruthyId(req.classId) && Truthy(req.studentId) {
      forall i | 0 <= i < |st.classes| && st.classes[i].id == req.classId.value
        ensures Admit(st, req) == AdmitToClass(st, st.classes[i], req.studentId.value)
      {
        ClassById(st.classes, i);
      }
    }
  }

  /** The check order: a full class answers "capacity reached" even to an
      unknown student or to one already enrolled. */
  lemma FullClassRefusesFirst(st: Store, req: EnrollRequest, i: nat)
    requires ClassIds(st.classes)
    requires TruthyId(req.classId) && Truthy(req.studentId)
    requires i < |st.classes| && st.classes[i].id == req.classId.value
    requires Full(st.classes[i], Headcount(st.enrollments, st.classes[i].id))
    ensures Admit(st, req) == (CapacityReached, st)
  {
    AdmitOutcome(st, req);
  }

  /** How `POST /join` decides before the class is known. */
  lemma JoinOutcome(st: Store, req: JoinRequest)
    ensures Join(st, req).0.MissingFields? <==> !Truthy(req.inviteCode) || !Truthy(req.studentId)
    ensures Truthy(req.inviteCode) && Truthy(req.studentId) ==>
              (Join(st, req).0.ClassNotFound? <==>
               forall i :: 0 <= i < |st.classes| ==> st.classes[i].inviteCode != req.inviteCode.value)
  {
  }

  /** Joining by invite code is `POST /` with the id of the first class
      that owns the code, whether or not other classes share that code:
      same outcome, same insert. Class ids are serial, hence non-zero. */
  lemma JoinTakesFirstOwner(st: Store, req: JoinRequest)
    requires ClassIds(st.classes)
    requires Truthy(req.inviteCode)
    requires First(st.classes, ClassWithCode(req.inviteCode.value)).Some?
    requires First(st.classes, ClassWithCode(req.inviteCode.value)).value.id != 0
    ensures var c := First(st.classes, ClassWithCode(req.inviteCode.value)).value;
            Join(st, req) == Admit(st, EnrollRequest(Some(c.id), req.studentId))
  {
    var c := First(st.classes, ClassWithCode(req.inviteCode.value)).value;
    FoundIn(st.classes, ClassWithCode(req.inviteCode.value));
    var i :| 0 <= i < |st.classes| && st.classes[i] == c;
    ClassById(st.classes, i);
    if Truthy(req.studentId) {
      assert Join(st, req) == AdmitToClass(st, c, req.studentId.value);
    }
  }

  /** With unique invite codes, the class owning the code is the class the
      join acts on. */
  lemma JoinIsAdmitById(st: Store, req: JoinRequest, i: nat)
    requires ClassIds(st.classes) && CodesUnique(st.classes)
    requires Truthy(req.inviteCode)
    requires i < |st.classes| && st.classes[i].inviteCode == req.inviteCode.value
    requires st.classes[i].id != 0
    ensures Join(st, req) == Admit(st, EnrollRequest(Some(st.classes[i].id), req.studentId))
  {
    ClassByCode(st.classes, i);
    JoinTakesFirstOwner(st, req);
  }

  /** A 201 adds one enrollment to the requested class and none to any
      other class. */
  lemma CreatedAddsOne(st: Store, req: EnrollRequest)
    requires Admit(st, req).0.Created?
    ensures var st' := Admit(st, req).1;
            Headcount(st'.enrollments, req.classId.value) == Headcount(st.enrollments, req.classId.value) + 1 &&
            forall id :: id != req.classId.value ==>
              Headcount(st'.enrollments, id) == Headcount(st.enrollments, id)
  {
    var e := Enrollment(st.nextId, req.classId.value, req.studentId.value);
    var st' := Admit(st, req).1;
    assert st'.enrollments == st.enrollments + [e];
    HeadcountAppend(st.enrollments, e, req.classId.value);
    forall id | id != req.classId.value
      ensures Headcount(st'.enrollments, id) == Headcount(st.enrollments, id)
    {
      HeadcountAppend(st.enrollments, e, id);
    }
  }

  /** The response to a 201 holds the new row, with its class. */
  lemma CreatedDetails(st: Store, req: EnrollRequest)
    requires IdsBelow(st.enrollments, st.nextId)
    requires Admit(st, req).0.Created?
    ensures var d := Admit(st, req).0.data;
            d.Some? &&
            d.value.enrollment == Enrollment(st.nextId, req.classId.value, req.studentId.value) &&
            d.value.classRecord.Some? && d.value.classRecord.value.id == req.classId.value
  {
    var found := First(st.classes, ClassWithId(req.classId.value));
    assert found.Some?;
    var c := found.value;
    FoundIn(st.classes, ClassWithId(req.classId.value));
    var res := AdmitToClass(st, c, req.studentId.value);
    assert Admit(st, req) == res;
    assert res.0.data == EnrollmentDetails(Inserted(st, c.id, req.studentId.value), st.nextId);
    NewRowDetails(st, c, req.studentId.value);
  }

  /** Right after the insert, the details of the fresh id are the new row
      and its class. */
  lemma NewRowDetails(st: Store, c: ClassRecord, studentId: string)
    requires IdsBelow(st.enrollments, st.nextId) && c in st.classes
    ensures var d := EnrollmentDetails(Inserted(st, c.id, studentId), st.nextId);
            d.Some? && d.value.enrollment == Enrollment(st.nextId, c.id, studentId) &&
            d.value.classRecord.Some? && d.value.classRecord.value.id == c.id
  {
    var st' := Inserted(st, c.id, studentId);
    var e := Enrollment(st.nextId, c.id, studentId);
    assert st'.enrollments[|st.enrollments|] == e;
    var d := EnrollmentDetails(st', st.nextId);
    assert d.Some?;
    assert d.value.enrollment == e;
  }

  /** Repeating a request that succeeded changes nothing: the pair is now
      there, so the answer is "already enrolled", unless that insert filled
      the class, in which case the capacity check, which runs first,
      answers "capacity reached". */
  lemma RetryAfterSuccess(st: Store, req: EnrollRequest)
    requires Admit(st, req).0.Created?
    ensures var st' := Admit(st, req).1;
            (Admit(st', req).0.AlreadyEnrolled? || Admit(st', req).0.CapacityReached?) &&
            Admit(st', req).1 == st'
    ensures First(st.classes, ClassWithId(req.classId.value)).Some?
    ensures var st' := Admit(st, req).1;
            var c := First(st.classes, ClassWithId(req.classId.value)).value;
            (Admit(st', req).0.CapacityReached? <==> Full(c, Headcount(st.enrollments, c.id) + 1)) &&
            (Admit(st', req).0.AlreadyEnrolled? <==> !Full(c, Headcount(st.enrollments, c.id) + 1))
  {
    var st' := Admit(st, req).1;
    var e := Enrollment(st.nextId, req.classId.value, req.studentId.value);
    assert st'.enrollments[|st.enrollments|] == e;
    assert IsEnrolled(st'.enrollments, req.classId.value, req.studentId.value);
    var found := First(st.classes, ClassWithId(req.classId.value));
    assert found.Some?;
    var c := found.value;
    FoundIn(st.classes, ClassWithId(req.classId.value));
    assert UserExists(st'.users, req.studentId.value);
    CreatedAddsOne(st, req);
    assert Admit(st', req) == AdmitToClass(st', c, req.studentId.value);
  }

  /** A request of either kind. */
  datatype Request = ById(enroll: EnrollRequest) | ByCode(join: JoinRequest)

  function Step(st: Store, r: Request): (res: (Outcome, Store))
    ensures !res.0.Created? ==> res.1 == st
  {
    match r
    case ById(q) => Admit(st, q)
    case ByCode(q) => Join(st, q)
  }

  /** Requests handled one after another: their outcomes and the final store. */
  function Run(st: Store, rs: seq<Request>): (res: (seq<Outcome>, Store))
    ensures |res.0| == |rs|
  {
    if |rs| == 0 then ([], st)
    else
      var before := Run(st, rs[..|rs| - 1]);
      var after := Step(before.1, rs[|rs| - 1]);
      (before.0 + [after.0], after.1)
  }

  /** Any sequence of requests keeps capacities respected and pairs unique. */
  lemma {:induction false} RunPreserves(st: Store, rs: seq<Request>)
    requires Valid(st)
    ensures Valid(Run(st, rs).1)
  {
    if |rs| > 0 {
      RunPreserves(st, rs[..|rs| - 1]);
      var mid := Run(st, rs[..|rs| - 1]).1;
      match rs[|rs| - 1]
      case ById(q) => AdmitPreserves(mid, q);
      case ByCode(q) => JoinPreserves(mid, q);
    }
  }

  /** One `POST /` per student, all for the same class, in order. */
  function EnrollEach(classId: int, students: seq<string>): seq<Request> {
    seq(|students|, i requires 0 <= i < |students| => ById(EnrollRequest(Some(classId), Some(students[i]))))
  }

  /** Every enrollment in the class belongs to one of `students`. */
  ghost predicate OnlyFrom(enrollments: seq<Enrollment>, classId: int, students: seq<string>) {
    forall j :: 0 <= j < |enrollments| && enrollments[j].classId == classId ==>
      enrollments[j].studentId in students
  }

  /** What `FillClass` keeps true after each request. */
  ghost predicate Filled(st: Store, res: (seq<Outcome>, Store), k: nat, students: seq<string>)
    requires k < |st.classes| && st.classes[k].capacity.Some?
  {
    var c := st.classes[k];
    var cap := c.capacity.value;
    res.1.classes == st.classes && res.1.users == st.users && Valid(res.1) &&
    Headcount(res.1.enrollments, c.id) == (if |students| <= cap then |students| else cap) &&
    OnlyFrom(res.1.enrollments, c.id, students) &&
    |res.0| == |students| &&
    forall i :: 0 <= i < |students| ==>
      (res.0[i].Created? <==> i < cap) && (res.0[i].Created? || res.0[i].CapacityReached?)
  }

  /** Distinct existing students asking one after another for a class with
      capacity `cap` and no enrollments yet: the first `cap` are admitted
      and every later one is refused for capacity. */
  lemma {:induction false} FillClass(st: Store, k: nat, students: seq<string>)
    requires Valid(st) && k < |st.classes| && st.classes[k].capacity.Some?
    requires st.classes[k].id != 0 && Headcount(st.enrollments, st.classes[k].id) == 0
    requires forall i :: 0 <= i < |students| ==> |students[i]| > 0 && UserExists(st.users, students[i])
    requires forall i, j :: 0 <= i < j < |students| ==> students[i] != students[j]
    ensures Filled(st, Run(st, EnrollEach(st.classes[k].id, students)), k, students)
  {
    var c := st.classes[k];
    var rs := EnrollEach(c.id, students);
    if |students| == 0 {
      NoneYet(st, k);
    } else {
      var n := |students| - 1;
      var earlier := students[..n];
      assert rs[..n] == EnrollEach(c.id, earlier);
      assert rs[n] == ById(EnrollRequest(Some(c.id), Some(students[n])));
      FillClass(st, k, earlier);
      var before := Run(st, rs[..n]);
      var last := Step(before.1, rs[n]);
      assert Run(st, rs) == (before.0 + [last.0], last.1);
      FillStep(st, k, students, before);
    }
  }

  /** Before any request, `Filled` holds of the empty list of students. */
  lemma NoneYet(st: Store, k: nat)
    requires Valid(st) && k < |st.classes| && st.classes[k].capacity.Some?
    requires Headcount(st.enrollments, st.classes[k].id) == 0
    ensures Filled(st, ([], st), k, [])
  {
    var c := st.classes[k];
    forall j | 0 <= j < |st.enrollments| ensures st.enrollments[j].classId != c.id {
      FilterMembership(st.enrollments, InClass(c.id), st.enrollments[j]);
    }
  }

  /** The last request of `FillClass`. */
  lemma FillStep(st: Store, k: nat, students: seq<string>, before: (seq<Outcome>, Store))
    requires Valid(st) && k < |st.classes| && st.classes[k].capacity.Some? && st.classes[k].id != 0
    requires |students| > 0
    requires forall i :: 0 <= i < |students| ==> |students[i]| > 0 && UserExists(st.users, students[i])
    requires forall i, j :: 0 <= i < j < |students| ==> students[i] != students[j]
    requires Filled(st, before, k, students[..|students| - 1])
    ensures var last := Step(before.1, ById(EnrollRequest(Some(st.classes[k].id), Some(students[|students| - 1]))));
            Filled(st, (before.0 + [last.0], last.1), k, students)
  {
    var c := st.classes[k];
    var n := |students| - 1;
    var who := students[n];
    var req := EnrollRequest(Some(c.id), Some(who));
    var mid := before.1;
    var cap := c.capacity.value;
    assert who !in students[..n];
    assert mid.classes == st.classes && mid.users == st.users && Valid(mid);
    assert Headcount(mid.enrollments, c.id) == (if n <= cap then n else cap);
    assert OnlyFrom(mid.enrollments, c.id, students[..n]);
    var last := LastRequest(st, k, students[..n], mid, who);
    assert last == Step(mid, ById(req));
    OutcomesExtend(before.0, last.0, cap);
    OnlyFromExtend(mid.enrollments, last.1.enrollments, mid.nextId, c.id, students);
    FilledIntro(st, k, students, (before.0 + [last.0], last.1));
  }

  /** `Filled`, one conjunct at a time. */
  lemma FilledIntro(st: Store, k: nat, students: seq<string>, res: (seq<Outcome>, Store))
    requires k < |st.classes| && st.classes[k].capacity.Some?
    requires res.1.classes == st.classes && res.1.users == st.users && Valid(res.1)
    requires var cap := st.classes[k].capacity.value;
             Headcount(res.1.enrollments, st.classes[k].id) == (if |students| <= cap then |students| else cap)
    requires OnlyFrom(res.1.enrollments, st.classes[k].id, students)
    requires |res.0| == |students|
    requires var cap := st.classes[k].capacity.value;
             forall i :: 0 <= i < |res.0| ==>
               (res.0[i].Created? <==> i < cap) && (res.0[i].Created? || res.0[i].CapacityReached?)
    ensures Filled(st, res, k, students)
  {
  }

  lemma OutcomesExtend(before: seq<Outcome>, o: Outcome, cap: int)
    requires forall i :: 0 <= i < |before| ==>
               (before[i].Created? <==> i < cap) && (before[i].Created? || before[i].CapacityReached?)
    requires (o.Created? <==> |before| < cap) && (o.Created? || o.CapacityReached?)
    ensures var outs := before + [o];
            forall i :: 0 <= i < |outs| ==>
              (outs[i].Created? <==> i < cap) && (outs[i].Created? || outs[i].CapacityReached?)
  {
  }

  lemma OnlyFromExtend(before: seq<Enrollment>, after: seq<Enrollment>, id: int, classId: int,
                       students: seq<string>)
    requires |students| > 0
    requires OnlyFrom(before, classId, students[..|students| - 1])
    requires after == before ||
             after == before + [Enrollment(id, classId, students[|students| - 1])]
    ensures OnlyFrom(after, classId, students)
  {
    var n := |students| - 1;
    forall j | 0 <= j < |after| && after[j].classId == classId
      ensures after[j].studentId in students
    {
      if j < |before| {
        assert after[j] == before[j];
        assert before[j].studentId in students[..n];
      }
    }
  }

  lemma NotEnrolledYet(enrollments: seq<Enrollment>, classId: int, earlier: seq<string>, who: string)
    requires OnlyFrom(enrollments, classId, earlier) && who !in earlier
    ensures !IsEnrolled(enrollments, classId, who)
  {
  }

  /** One more student asks: admitted while the class has room, refused for
      capacity once it is full. */
  lemma LastRequest(st: Store, k: nat, earlier: seq<string>, mid: Store, who: string)
      returns (last: (Outcome, Store))
    requires k < |st.classes| && st.classes[k].capacity.Some? && st.classes[k].id != 0
    requires mid.classes == st.classes && mid.users == st.users && Valid(mid)
    requires var cap := st.classes[k].capacity.value;
             Headcount(mid.enrollments, st.classes[k].id) == (if |earlier| <= cap then |earlier| else cap)
    requires OnlyFrom(mid.enrollments, st.classes[k].id, earlier)
    requires |who| > 0 && UserExists(st.users, who) && who !in earlier
    ensures last == Admit(mid, EnrollRequest(Some(st.classes[k].id), Some(who)))
    ensures last.1.classes == st.classes && last.1.users == st.users && Valid(last.1)
    ensures var cap := st.classes[k].capacity.value;
            (last.0.Created? <==> |earlier| < cap) && (last.0.Created? || last.0.CapacityReached?) &&
            Headcount(last.1.enrollments, st.classes[k].id) == (if |earlier| + 1 <= cap then |earlier| + 1 else cap)
    ensures last.1.enrollments == mid.enrollments ||
            last.1.enrollments == mid.enrollments + [Enrollment(mid.nextId, st.classes[k].id, who)]
  {
    var c := st.classes[k];
    var req := EnrollRequest(Some(c.id), Some(who));
    last := Admit(mid, req);
    AdmitOutcome(mid, req);
    assert last == AdmitToClass(mid, c, who);
    AdmitPreserves(mid, req);
    NotEnrolledYet(mid.enrollments, c.id, earlier, who);
    if last.0.Created? {
      CreatedAddsOne(mid, req);
    }
  }
}

=== FILE: jsint.dfy ===
/** JavaScript's `parseInt(text, 10)` on query-string text, with NaN as
    `None`, and the decimal rendering it inverts. */
module JsInt {
  import opened Common
  import Text

  predicate IsDigit(c: char) { '0' <= c <= '9' }

  predicate AllDigits(s: string) {
    forall i :: 0 <= i < |s| ==> IsDigit(s[i])
  }

  function DigitValue(c: char): nat
    requires IsDigit(c)
  {
    c as int - '0' as int
  }

  /** The number a run of decimal digits denotes, most significant first. */
  function DigitsValue(ds: string): nat
    requires AllDigits(ds)
  {
    if |ds| == 0 then 0
    else DigitsValue(ds[..|ds| - 1]) * 10 + DigitValue(ds[|ds| - 1])
  }

  /** The longest prefix of `s` made of decimal digits. */
  function LeadingDigits(s: string): (ds: string)
    ensures |ds| <= |s| && ds == s[..|ds|]
    ensures AllDigits(ds)
    ensures |ds| < |s| ==> !IsDigit(s[|ds|])
  {
    if |s| == 0 || !IsDigit(s[0]) then ""
    else [s[0]] + LeadingDigits(s[1..])
  }

  /** `parseInt(s, 10)`: skip leading whitespace, read an optional sign,
      then as many decimal digits as follow; `None` (NaN) when there are none.
      Anything after the digits ("12abc", "1e3", "3.7") is ignored. */
  function ParseInt(s: string): (r: Option<int>)
  {
    ParseSigned(Text.TrimStart(s))
  }

  /** The sign-and-digits part of `parseInt`, after the whitespace. */
  function ParseSigned(t: string): (r: Option<int>)
  {
    if |t| > 0 && t[0] == '-' then
      match ParseDigitRun(t[1..])
      case Some(v) => Some(-v)
      case None => None
    else if |t| > 0 && t[0] == '+' then ParseDigitRun(t[1..])
    else ParseDigitRun(t)
  }

  /** The value of the digits at the start of `s`, if there are any. */
  function ParseDigitRun(s: string): (r: Option<int>)
  {
    var ds := LeadingDigits(s);
    if |ds| == 0 then None else Some(DigitsValue(ds) as int)
  }

  /** The decimal digits of a non-negative integer, most significant first.
      This is JavaScript's `String(n)` for the numbers the handlers' defaults
      use (below 10^21; larger numbers print in exponent form there). */
  function Decimal(n: nat): (s: string)
    ensures |s| >= 1 && AllDigits(s)
  {
    if n < 10 then ['0' + n as char]
    else Decimal(n / 10) + ['0' + (n % 10) as char]
  }

  lemma {:induction false} DigitsValueOfDecimal(n: nat)
    ensures DigitsValue(Decimal(n)) == n
  {
    if n >= 10 {
      DigitsValueOfDecimal(n / 10);
      var s := Decimal(n);
      assert s[..|s| - 1] == Decimal(n / 10);
    }
  }

  lemma {:induction false} LeadingDigitsOfDigits(s: string)
    requires AllDigits(s)
    ensures LeadingDigits(s) == s
  {
    if |s| > 0 {
      LeadingDigitsOfDigits(s[1..]);
    }
  }

  lemma TrimStartKeeps(s: string)
    requires |s| > 0 && !Text.IsJsSpace(s[0])
    ensures Text.TrimStart(s) == s
  {
  }

  lemma ParseSignedMinus(m: string)
    requires |m| > 1 && m[0] == '-' && AllDigits(m[1..])
    ensures ParseSigned(m) == Some(-(DigitsValue(m[1..]) as int))
  {
    LeadingDigitsOfDigits(m[1..]);
  }

  lemma ParseDigits(d: string, n: nat)
    requires |d| > 0 && AllDigits(d) && DigitsValue(d) == n
    ensures ParseInt(d) == Some(n)
  {
    TrimStartKeeps(d);
    LeadingDigitsOfDigits(d);
  }

  lemma ParseMinusDigits(d: string, n: nat)
    requires |d| > 0 && AllDigits(d) && DigitsValue(d) == n
    ensures ParseInt("-" + d) == Some(-(n as int))
  {
    var m := "-" + d;
    TrimStartKeeps(m);
    assert m[1..] == d;
    ParseSignedMinus(m);
  }

  /** `parseInt` reads back the decimal rendering of any integer,
      negative ones with their minus sign. */
  lemma ParseDecimal(n: nat)
    ensures ParseInt(Decimal(n)) == Some(n)
    ensures ParseInt("-" + Decimal(n)) == Some(-(n as int))
  {
    DigitsValueOfDecimal(n);
    ParseDigits(Decimal(n), n);
    ParseMinusDigits(Decimal(n), n);
  }

  /** Text with no digit after the optional whitespace and sign is NaN. */
  lemma ParseNoDigits(s: string)
    requires forall i :: 0 <= i < |s| ==> !IsDigit(s[i])
    ensures ParseInt(s).None?
  {
    var t := Text.TrimStart(s);
    assert forall i :: 0 <= i < |t| ==> t[i] == s[|s| - |t| + i];
  }

  /** JavaScript's `parseInt(text, 10) || fallback`: NaN and zero (also
      "-0") are falsy and give way to the fallback. */
  function ParseIntOr(s: string, fallback: int): (v: int)
    ensures ParseInt(s).None? ==> v == fallback
    ensures ParseInt(s).Some? && ParseInt(s).value == 0 ==> v == fallback
    ensures ParseInt(s).Some? && ParseInt(s).value != 0 ==> v == ParseInt(s).value
  {
    match ParseInt(s)
    case Some(n) => if n != 0 then n else fallback
    case None => fallback
  }
}

=== FILE: listquery.dfy ===
/** The shape shared by the `GET /` list handlers of departments, subjects
    and users: one where clause used by both the count query and the page
    query, rows ordered by creation time newest first, then LIMIT/OFFSET
    from the clamped `page` and `limit` parameters. */
module ListQuery {
  import opened Common
  import Sorting
  import Paging
  import JsInt

  /** The rows the where clause keeps, newest first. */
  function Ordered<T(!new)>(table: seq<T>, matches: T -> bool, createdAt: T -> int): (o: seq<T>)
    ensures multiset(o) == multiset(Filter(table, matches))
    ensures |o| == |Filter(table, matches)|
    ensures forall i :: 0 <= i < |o| ==> o[i] in table && matches(o[i])
    ensures forall t :: t in table && matches(t) ==> t in o
    ensures Sorting.SortedDesc(o, createdAt)
  {
    var m := Filter(table, matches);
    var o := Sorting.SortDesc(m, createdAt);
    forall t | t in o ensures t in table && matches(t) {
      Sorting.SortMembers(m, createdAt, t);
      FilterMembership(table, matches, t);
    }
    forall t | t in table && matches(t) ensures t in o {
      Sorting.SortMembers(m, createdAt, t);
      FilterMembership(table, matches, t);
    }
    o
  }

  /** One list request: the count of matching rows and the requested page
      of them, projected through `view`. */
  function List<T(!new), R>(table: seq<T>, matches: T -> bool, createdAt: T -> int, view: T -> R,
                             page: Option<string>, limit: Option<string>): (r: Paging.Listing<R>)
    ensures r.pagination.page == Paging.CurrentPage(page)
    ensures r.pagination.limit == Paging.LimitPerPage(limit)
    ensures r.pagination.total == |Filter(table, matches)|
    ensures r.pagination.totalPages == Paging.CeilDiv(r.pagination.total, r.pagination.limit)
    ensures |r.data| <= r.pagination.limit
    ensures r.data == MapRows(Paging.PageOf(Ordered(table, matches, createdAt),
                                            Paging.CurrentPage(page), Paging.LimitPerPage(limit)), view)
  {
    var listing := Paging.Respond(Ordered(table, matches, createdAt), page, limit);
    Paging.Listing(MapRows(listing.data, view), listing.pagination)
  }

  /** Each row on a page is the view of a table row the where clause keeps,
      and the page runs from newest to oldest. */
  lemma PageRows<T(!new), R>(table: seq<T>, matches: T -> bool, createdAt: T -> int, view: T -> R,
                             page: Option<string>, limit: Option<string>)
    ensures var r := List(table, matches, createdAt, view, page, limit);
            var pg := Paging.PageOf(Ordered(table, matches, createdAt), r.pagination.page, r.pagination.limit);
            |r.data| == |pg| &&
            (forall k :: 0 <= k < |pg| ==> r.data[k] == view(pg[k]) && pg[k] in table && matches(pg[k])) &&
            Sorting.SortedDesc(pg, createdAt)
  {
    var r := List(table, matches, createdAt, view, page, limit);
    var o := Ordered(table, matches, createdAt);
    SliceKeeps(o, r.pagination.page, r.pagination.limit, table, matches, createdAt);
  }

  lemma SliceKeeps<T>(o: seq<T>, page: int, limit: int, table: seq<T>, matches: T -> bool, createdAt: T -> int)
    requires page >= 1 && limit >= 1
    requires forall i :: 0 <= i < |o| ==> o[i] in table && matches(o[i])
    requires Sorting.SortedDesc(o, createdAt)
    ensures var pg := Paging.PageOf(o, page, limit);
            (forall k :: 0 <= k < |pg| ==> pg[k] in table && matches(pg[k])) &&
            Sorting.SortedDesc(pg, createdAt)
  {
    var pg := Paging.PageOf(o, page, limit);
    var off := Paging.Offset(page, limit);
    forall i, j | 0 <= i < j < |pg| ensures createdAt(pg[i]) >= createdAt(pg[j]) {
      assert pg[i] == o[off + i] && pg[j] == o[off + j];
    }
  }

  /** Every matching row is listed on some page between 1 and `totalPages`,
      whatever the page size. */
  lemma {:induction false} EveryMatchListed<T(!new), R>(table: seq<T>, matches: T -> bool,
      createdAt: T -> int, view: T -> R, limit: Option<string>, t: T)
    requires t in table && matches(t)
    ensures exists p: nat :: 1 <= p && Listed(table, matches, createdAt, view, limit, p, view(t))
  {
    var o := Ordered(table, matches, createdAt);
    var l := Paging.LimitPerPage(limit);
    var k :| 0 <= k < |o| && o[k] == t;
    var p, pos := Paging.RowOnItsPage(o, l, k);
    Paging.PageOfDecimal(p);
    ListedOnPage(table, matches, createdAt, view, limit, p, pos);
  }

  /** A row at position `pos` of page `p`, for a `p` within `totalPages`,
      is listed when page "p" is asked for. */
  lemma ListedOnPage<T(!new), R>(table: seq<T>, matches: T -> bool, createdAt: T -> int,
                                 view: T -> R, limit: Option<string>, p: nat, pos: nat)
    requires p >= 1 && Paging.CurrentPage(Some(JsInt.Decimal(p))) == p
    requires var o := Ordered(table, matches, createdAt);
             var l := Paging.LimitPerPage(limit);
             p <= Paging.CeilDiv(|o|, l) && pos < |Paging.PageOf(o, p, l)|
    ensures var pg := Paging.PageOf(Ordered(table, matches, createdAt), p, Paging.LimitPerPage(limit));
            Listed(table, matches, createdAt, view, limit, p, view(pg[pos]))
  {
    var pg := Paging.PageOf(Ordered(table, matches, createdAt), p, Paging.LimitPerPage(limit));
    var r := List(table, matches, createdAt, view, Some(JsInt.Decimal(p)), limit);
    assert r.data == MapRows(pg, view);
    assert r.data[pos] == view(pg[pos]);
  }

  /** Asking for page `p` (as the text "p") returns `row`, and `p` is within
      the reported `totalPages`. */
  ghost predicate Listed<T(!new), R>(table: seq<T>, matches: T -> bool, createdAt: T -> int,
                                     view: T -> R, limit: Option<string>, p: nat, row: R)
  {
    var r := List(table, matches, createdAt, view, Some(JsInt.Decimal(p)), limit);
    p <= r.pagination.totalPages && row in r.data
  }

  /** Without a where clause every row is counted. */
  lemma CountAllWithoutFilter<T(!new), R>(table: seq<T>, matches: T -> bool, createdAt: T -> int,
                                         view: T -> R, page: Option<string>, limit: Option<string>)
    requires forall i :: 0 <= i < |table| ==> matches(table[i])
    ensures List(table, matches, createdAt, view, page, limit).pagination.total == |table|
  {
    FilterAll(table, matches);
  }
}

=== FILE: paging.dfy ===
/** The pagination shared by the three list endpoints (departments,
    subjects, users): clamping the `page` and `limit` query strings,
    the row offset, the page slice, and the page count. */
module Paging {
  import opened Common
  import JsInt

  /** Page used when `page` is absent, unparsable or zero. */
  const DefaultPage: int := 1
  /** Page size used when `limit` is absent, unparsable or zero. */
  const DefaultLimit: int := 10
  /** Largest page size a client may ask for. */
  const MaxLimit: int := 100

  /** The text `parseInt` sees: the query value, or `String(fallback)` when
      the parameter is missing (the `page = 1, limit = 10` destructuring
      defaults). */
  function ParamText(param: Option<string>, fallback: nat): (t: string)
    ensures param.Some? ==> t == param.value
    ensures param.None? ==> JsInt.ParseInt(t) == Some(fallback)
  {
    JsInt.ParseDecimal(fallback);
    param.Coalesce(JsInt.Decimal(fallback))
  }

  /** `Math.max(1, parseInt(String(page), 10) || 1)`. */
  function CurrentPage(page: Option<string>): (p: int)
    ensures p >= 1
    ensures var n := JsInt.ParseInt(ParamText(page, 1));
            n.Some? && n.value >= 1 ==> p == n.value
    ensures var n := JsInt.ParseInt(ParamText(page, 1));
            n.None? || n.value <= 0 ==> p == DefaultPage
  {
    var n := JsInt.ParseIntOr(ParamText(page, 1), DefaultPage);
    if n < 1 then 1 else n
  }

  /** `Math.max(1, Math.min(100, parseInt(String(limit), 10) || 10))`. */
  function LimitPerPage(limit: Option<string>): (l: int)
    ensures 1 <= l <= MaxLimit
    ensures var n := JsInt.ParseInt(ParamText(limit, 10));
            n.None? || n.value == 0 ==> l == DefaultLimit
    ensures var n := JsInt.ParseInt(ParamText(limit, 10));
            n.Some? && n.value < 0 ==> l == 1
    ensures var n := JsInt.ParseInt(ParamText(limit, 10));
            n.Some? && n.value > MaxLimit ==> l == MaxLimit
    ensures var n := JsInt.ParseInt(ParamText(limit, 10));
            n.Some? && 1 <= n.value <= MaxLimit ==> l == n.value
  {
    var n := JsInt.ParseIntOr(ParamText(limit, 10), DefaultLimit);
    var capped := if n > MaxLimit then MaxLimit else n;
    if capped < 1 then 1 else capped
  }

  /** What the clamps make of the usual query strings: a missing parameter,
      a decimal number, a negative number, and text without digits. */
  lemma ClampDecimal(n: nat, junk: string)
    requires forall i :: 0 <= i < |junk| ==> !JsInt.IsDigit(junk[i])
    ensures CurrentPage(None) == 1 && LimitPerPage(None) == 10
    ensures CurrentPage(Some(JsInt.Decimal(n))) == if n == 0 then 1 else n
    ensures CurrentPage(Some("-" + JsInt.Decimal(n))) == 1
    ensures CurrentPage(Some(junk)) == 1
    ensures LimitPerPage(Some(JsInt.Decimal(n))) ==
              if n == 0 then 10 else if n > 100 then 100 else n
    ensures n > 0 ==> LimitPerPage(Some("-" + JsInt.Decimal(n))) == 1
    ensures LimitPerPage(Some(junk)) == 10
  {
    JsInt.ParseDecimal(1);
    JsInt.ParseDecimal(10);
    JsInt.ParseDecimal(n);
    JsInt.ParseNoDigits(junk);
  }

  /** `(currentPage - 1) * limitPerPage`: rows skipped before the page. */
  function Offset(page: int, limit: int): nat
    requires page >= 1 && limit >= 1
  {
    MulNonNeg(page - 1, limit);
    (page - 1) * limit
  }

  lemma MulNonNeg(a: nat, b: nat)
    ensures a * b >= 0
  {
  }

  /** `Math.ceil(total / limit)` in integers: the number of pages needed to
      hold `total` rows, zero when there are none. */
  function CeilDiv(total: nat, limit: int): (q: nat)
    requires limit >= 1
    ensures (q - 1) * limit < total <= q * limit
  {
    var q := (total + limit - 1) / limit;
    var r := (total + limit - 1) % limit;
    assert total + limit - 1 == q * limit + r;
    assert q * limit == total + limit - 1 - r;
    assert (q - 1) * limit == q * limit - limit;
    q
  }

  /** `CeilDiv` is the only count that meets its contract. */
  lemma CeilDivUnique(total: nat, limit: int, q: int)
    requires limit >= 1
    requires (q - 1) * limit < total <= q * limit
    ensures q == CeilDiv(total, limit)
  {
    var c := CeilDiv(total, limit);
    if q < c {
      assert q * limit <= (c - 1) * limit by { MulMono(q, c - 1, limit); }
    } else if q > c {
      assert c * limit <= (q - 1) * limit by { MulMono(c, q - 1, limit); }
    }
  }

  lemma MulMono(a: int, b: int, k: int)
    requires a <= b && k >= 0
    ensures a * k <= b * k
  {
    assert b * k - a * k == (b - a) * k;
  }

  /** SQL `LIMIT limit OFFSET (page - 1) * limit` over ordered rows. */
  function PageOf<T>(rows: seq<T>, page: int, limit: int): (r: seq<T>)
    requires page >= 1 && limit >= 1
    ensures |r| <= limit
    ensures |r| == if Offset(page, limit) >= |rows| then 0
                   else Min(limit, |rows| - Offset(page, limit))
    ensures forall k :: 0 <= k < |r| ==> r[k] == rows[Offset(page, limit) + k]
  {
    var o := Offset(page, limit);
    if o >= |rows| then [] else rows[o..Min(o + limit, |rows|)]
  }

  /** A page has rows exactly when its number is within `totalPages`. */
  lemma PageNonEmptyIff<T>(rows: seq<T>, page: int, limit: int)
    requires page >= 1 && limit >= 1
    ensures |PageOf(rows, page, limit)| > 0 <==> page <= CeilDiv(|rows|, limit)
  {
    var c := CeilDiv(|rows|, limit);
    var o := Offset(page, limit);
    assert o == (page - 1) * limit;
    if page <= c {
      MulMono(page - 1, c - 1, limit);
    } else {
      MulMono(c, page - 1, limit);
    }
  }

  /** The row at position `k` of the ordered result is shown on page
      `k / limit + 1`, at position `k % limit`, and that page is within
      `totalPages`. */
  lemma RowOnItsPage<T>(rows: seq<T>, limit: int, k: nat) returns (page: nat, pos: nat)
    requires limit >= 1 && k < |rows|
    ensures page == k / limit + 1 && pos == k % limit
    ensures 1 <= page <= CeilDiv(|rows|, limit)
    ensures pos < |PageOf(rows, page, limit)| && PageOf(rows, page, limit)[pos] == rows[k]
  {
    page := k / limit + 1;
    pos := k % limit;
    assert k == (k / limit) * limit + k % limit;
    assert Offset(page, limit) == (k / limit) * limit;
    PageNonEmptyIff(rows, page, limit);
  }

  /** The page text "p" selects page `p`. */
  lemma PageOfDecimal(p: nat)
    requires p >= 1
    ensures CurrentPage(Some(JsInt.Decimal(p))) == p
  {
    JsInt.ParseDecimal(p);
  }

  /** Pages 1 through `n`, one after the other. */
  function FirstPages<T>(rows: seq<T>, limit: int, n: nat): seq<T>
    requires limit >= 1
  {
    if n == 0 then [] else FirstPages(rows, limit, n - 1) + PageOf(rows, n, limit)
  }

  /** Reading pages 1 to `n` in turn gives a prefix of the ordered rows:
      every row before the offset of page `n + 1`. */
  lemma {:induction false} FirstPagesPrefix<T>(rows: seq<T>, limit: int, n: nat)
    requires limit >= 1
    ensures FirstPages(rows, limit, n) == rows[..Min(Offset(n + 1, limit), |rows|)]
  {
    if n > 0 {
      FirstPagesPrefix(rows, limit, n - 1);
      NextOffset(n, limit);
      AppendPage(rows, Offset(n, limit), limit, PageOf(rows, n, limit));
    }
  }

  /** Page `n + 1` starts one page after page `n`. */
  lemma NextOffset(n: int, limit: int)
    requires n >= 1 && limit >= 1
    ensures Offset(n + 1, limit) == Offset(n, limit) + limit
  {
    assert n * limit == (n - 1) * limit + limit;
  }

  lemma AppendPage<T>(rows: seq<T>, o: nat, limit: int, page: seq<T>)
    requires limit >= 1
    requires page == if o >= |rows| then [] else rows[o..Min(o + limit, |rows|)]
    ensures rows[..Min(o, |rows|)] + page == rows[..Min(o + limit, |rows|)]
  {
  }

  /** Pages 1 to `totalPages` show every row of the result exactly once,
      in order. */
  lemma PagesCoverAll<T>(rows: seq<T>, limit: int)
    requires limit >= 1
    ensures FirstPages(rows, limit, CeilDiv(|rows|, limit)) == rows
  {
    var c := CeilDiv(|rows|, limit);
    FirstPagesPrefix(rows, limit, c);
    assert Offset(c + 1, limit) == c * limit;
  }

  /** The `pagination` object of a list response. */
  datatype Pagination = Pagination(page: int, limit: int, total: nat, totalPages: nat)

  /** A list response: the page of rows and its `pagination` object. */
  datatype Listing<T> = Listing(data: seq<T>, pagination: Pagination)

  /** The response for `ordered` (the matching rows, already ordered) under
      the `page` and `limit` query parameters. */
  function Respond<T>(ordered: seq<T>, page: Option<string>, limit: Option<string>): (r: Listing<T>)
    ensures r.pagination.page == CurrentPage(page)
    ensures r.pagination.limit == LimitPerPage(limit)
    ensures r.pagination.total == |ordered|
    ensures |r.data| <= r.pagination.limit
    ensures r.pagination.totalPages == CeilDiv(|ordered|, r.pagination.limit)
    ensures |r.data| > 0 <==> r.pagination.page <= r.pagination.totalPages
    ensures r.data == PageOf(ordered, r.pagination.page, r.pagination.limit)
  {
    ListingOf(ordered, CurrentPage(page), LimitPerPage(limit))
  }

  function ListingOf<T>(ordered: seq<T>, p: int, l: int): (r: Listing<T>)
    requires p >= 1 && l >= 1
    ensures r.pagination == Pagination(p, l, |ordered|, CeilDiv(|ordered|, l))
    ensures r.data == PageOf(ordered, p, l)
    ensures |r.data| > 0 <==> p <= CeilDiv(|ordered|, l)
  {
    PageNonEmptyIff(ordered, p, l);
    Listing(PageOf(ordered, p, l), Pagination(p, l, |ordered|, CeilDiv(|ordered|, l)))
  }
}

=== FILE: schema.dfy ===
/** The rows of the relational tables the routes read and write, reduced
    to the columns the modelled code looks at. Timestamps are integers
    (larger is newer). */
module Schema {
  import opened Common

  datatype Department = Department(
    id: int,
    code: string,
    name: string,
    description: Option<string>,
    createdAt: int)

  datatype Subject = Subject(
    id: int,
    departmentId: int,
    name: string,
    code: string,
    description: Option<string>,
    createdAt: int)

  /** An account; `role` is one of "student", "teacher", "admin". */
  datatype User = User(
    id: string,
    name: string,
    email: string,
    role: string,
    createdAt: int)

  /** A class offering. A `None` capacity means unlimited. */
  datatype ClassRecord = ClassRecord(
    id: int,
    name: string,
    subjectId: int,
    teacherId: string,
    inviteCode: string,
    capacity: Option<int>)

  datatype Enrollment = Enrollment(id: int, classId: int, studentId: string)

  function DepartmentCreatedAt(d: Department): int { d.createdAt }
  function SubjectCreatedAt(s: Subject): int { s.createdAt }
  function UserCreatedAt(u: User): int { u.createdAt }

  /** `eq(departments.id, id)`, the join and lookup condition on departments. */
  function DepartmentWithId(id: int): Department -> bool { (d: Department) => d.id == id }
}

=== FILE: sorting.dfy ===
/** Ordering rows by a numeric key, largest first: SQL `ORDER BY ... DESC`
    in the list endpoints and the dashboard's
    `sort((a, b) => b.n - a.n)`. The sort is stable, as JavaScript's
    `Array.prototype.sort` is. */
module Sorting {

  /** `s` is ordered by `key`, largest first. */
  ghost predicate SortedDesc<T>(s: seq<T>, key: T -> int) {
    forall i, j :: 0 <= i < j < |s| ==> key(s[i]) >= key(s[j])
  }

  /** Puts `x` in front of the first element whose key is not larger, so it
      lands after every element with a strictly larger key. */
  function Insert<T>(x: T, s: seq<T>, key: T -> int): seq<T>
  {
    if |s| == 0 then [x]
    else if key(s[0]) <= key(x) then [x] + s
    else [s[0]] + Insert(x, s[1..], key)
  }

  lemma {:induction false} InsertPerm<T>(x: T, s: seq<T>, key: T -> int)
    ensures multiset(Insert(x, s, key)) == multiset(s) + multiset{x}
  {
    if |s| > 0 && key(s[0]) > key(x) {
      InsertPerm(x, s[1..], key);
      assert s == [s[0]] + s[1..];
    }
  }

  /** A bound on every key of `x` and `s` bounds every key of the insertion. */
  lemma {:induction false} InsertBound<T>(x: T, s: seq<T>, key: T -> int, b: int)
    requires key(x) <= b
    requires forall i :: 0 <= i < |s| ==> key(s[i]) <= b
    ensures forall i :: 0 <= i < |Insert(x, s, key)| ==> key(Insert(x, s, key)[i]) <= b
  {
    if |s| > 0 && key(s[0]) > key(x) {
      InsertBound(x, s[1..], key, b);
    }
  }

  lemma {:induction false} InsertSorted<T>(x: T, s: seq<T>, key: T -> int)
    requires SortedDesc(s, key)
    ensures SortedDesc(Insert(x, s, key), key)
  {
    if |s| > 0 && key(s[0]) > key(x) {
      InsertSorted(x, s[1..], key);
      InsertBound(x, s[1..], key, key(s[0]));
    }
  }

  /** Insertion sort, largest key first; equal keys keep their input order. */
  function SortDesc<T>(s: seq<T>, key: T -> int): (r: seq<T>)
    ensures SortedDesc(r, key)
    ensures multiset(r) == multiset(s)
    ensures |r| == |s|
  {
    if |s| == 0 then []
    else
      var rest := SortDesc(s[1..], key);
      InsertHead(s, rest, key);
      Insert(s[0], rest, key)
  }

  /** Inserting the head into the sorted tail sorts the whole sequence. */
  lemma InsertHead<T>(s: seq<T>, rest: seq<T>, key: T -> int)
    requires |s| > 0 && SortedDesc(rest, key) && multiset(rest) == multiset(s[1..])
    ensures var r := Insert(s[0], rest, key);
            SortedDesc(r, key) && multiset(r) == multiset(s) && |r| == |s|
  {
    var r := Insert(s[0], rest, key);
    InsertPerm(s[0], rest, key);
    InsertSorted(s[0], rest, key);
    assert s == [s[0]] + s[1..];
    assert |multiset(r)| == |multiset(s)|;
  }

  /** Sorting keeps the elements: the same ones, each as often. */
  lemma SortMembers<T>(s: seq<T>, key: T -> int, x: T)
    ensures x in SortDesc(s, key) <==> x in s
  {
    var r := SortDesc(s, key);
    assert x in r <==> x in multiset(r);
    assert x in s <==> x in multiset(s);
  }
}

=== FILE: subjects.dfy ===
/** `GET /subjects`: subjects LEFT JOINed with their department, filtered by
    an optional search term (subject name or code) and an optional
    department-name term, both combined with AND, newest first, one page
    at a time. */
module SubjectsRoute {
  import opened Common
  import opened Schema
  import Text
  import Paging
  import ListQuery
  import JsInt

  datatype Query = Query(
    search: Option<string>,
    department: Option<string>,
    page: Option<string>,
    limit: Option<string>)

  /** A subject with its department's columns, `None` when the join finds
      no department. */
  datatype SubjectRow = SubjectRow(subject: Subject, department: Option<Department>)

  /** `subjects LEFT JOIN departments ON subjects.departmentId = departments.id`,
      one row per subject (department ids are unique). */
  function Joined(subjects: seq<Subject>, departments: seq<Department>): (rows: seq<SubjectRow>)
    ensures |rows| == |subjects|
    ensures forall i :: 0 <= i < |rows| ==> rows[i].subject == subjects[i]
    ensures forall i :: 0 <= i < |rows| && rows[i].department.Some? ==>
              rows[i].department.value in departments &&
              rows[i].department.value.id == subjects[i].departmentId
    ensures forall i :: 0 <= i < |rows| && rows[i].department.None? ==>
              forall j :: 0 <= j < |departments| ==> departments[j].id != subjects[i].departmentId
  {
    seq(|subjects|, i requires 0 <= i < |subjects| =>
          SubjectRow(subjects[i], First(departments, DepartmentWithId(subjects[i].departmentId))))
  }

  /** The where clause: each present, non-empty filter adds one condition
      and the conditions are joined with AND. A subject without a
      department never matches a department filter (ILIKE on NULL). */
  predicate Matches(search: Option<string>, department: Option<string>, row: SubjectRow) {
    (!Truthy(search) ||
     Text.ILikeContains(row.subject.name, search.value) ||
     Text.ILikeContains(row.subject.code, search.value)) &&
    (!Truthy(department) ||
     (row.department.Some? && Text.ILikeContains(row.department.value.name, department.value)))
  }

  function Where(search: Option<string>, department: Option<string>): SubjectRow -> bool {
    (row: SubjectRow) => Matches(search, department, row)
  }

  function RowCreatedAt(row: SubjectRow): int { row.subject.createdAt }

  /** The handler's 200 response. */
  function ListSubjects(subjects: seq<Subject>, departments: seq<Department>, q: Query)
    : (r: Paging.Listing<SubjectRow>)
    ensures r.pagination.page >= 1 && 1 <= r.pagination.limit <= Paging.MaxLimit
    ensures r.pagination.total == |Filter(Joined(subjects, departments), Where(q.search, q.department))|
    ensures r.pagination.totalPages == Paging.CeilDiv(r.pagination.total, r.pagination.limit)
    ensures |r.data| <= r.pagination.limit
    ensures forall k :: 0 <= k < |r.data| ==>
              r.data[k] in Joined(subjects, departments) &&
              r.data[k].subject in subjects && Matches(q.search, q.department, r.data[k])
    ensures forall i, j :: 0 <= i < j < |r.data| ==>
              r.data[i].subject.createdAt >= r.data[j].subject.createdAt
    ensures r.data == MapRows(
                        Paging.PageOf(ListQuery.Ordered(Joined(subjects, departments),
                                                        Where(q.search, q.department), RowCreatedAt),
                                      r.pagination.page, r.pagination.limit),
                        AsIs)
  {
    var table := Joined(subjects, departments);
    ListQuery.PageRows(table, Where(q.search, q.department), RowCreatedAt, AsIs, q.page, q.limit);
    var r := ListQuery.List(table, Where(q.search, q.department), RowCreatedAt, AsIs, q.page, q.limit);
    JoinedKeepsSubjects(subjects, departments, r.data);
    r
  }

  lemma JoinedKeepsSubjects(subjects: seq<Subject>, departments: seq<Department>, rows: seq<SubjectRow>)
    requires forall k :: 0 <= k < |rows| ==> rows[k] in Joined(subjects, departments)
    ensures forall k :: 0 <= k < |rows| ==> rows[k].subject in subjects
  {
    var table := Joined(subjects, departments);
    forall k | 0 <= k < |rows| ensures rows[k].subject in subjects {
      var i :| 0 <= i < |table| && table[i] == rows[k];
    }
  }

  /** The two filters combine with AND: selecting by the search term and
      then by the department term keeps the same rows as the where clause
      with both, so the response is that of the department filter run on
      the subjects the search keeps. */
  lemma FiltersCombineWithAnd(subjects: seq<Subject>, departments: seq<Department>, q: Query)
    ensures var t := Joined(subjects, departments);
            Filter(Filter(t, Where(q.search, None)), Where(None, q.department)) ==
            Filter(t, Where(q.search, q.department))
    ensures var t := Joined(subjects, departments);
            ListSubjects(subjects, departments, q) ==
            ListQuery.List(Filter(t, Where(q.search, None)), Where(None, q.department),
                           RowCreatedAt, AsIs, q.page, q.limit)
  {
    var t := Joined(subjects, departments);
    FilterFilter(t, Where(q.search, None), Where(None, q.department), Where(q.search, q.department));
  }

  /** With neither filter the where clause is absent and every subject is
      counted. */
  lemma NoFiltersCountsAll(subjects: seq<Subject>, departments: seq<Department>, q: Query)
    requires !Truthy(q.search) && !Truthy(q.department)
    ensures ListSubjects(subjects, departments, q).pagination.total == |subjects|
  {
    FilterAll(Joined(subjects, departments), Where(q.search, q.department));
  }

  /** Every subject whose joined row matches appears on some page between
      1 and `totalPages`. */
  lemma EveryMatchListed(subjects: seq<Subject>, departments: seq<Department>,
                         search: Option<string>, department: Option<string>,
                         limit: Option<string>, row: SubjectRow)
    requires row in Joined(subjects, departments) && Matches(search, department, row)
    ensures exists p: nat :: 1 <= p &&
              var r := ListSubjects(subjects, departments, Query(search, department, Some(JsInt.Decimal(p)), limit));
              p <= r.pagination.totalPages && row in r.data
  {
    var table := Joined(subjects, departments);
    ListQuery.EveryMatchListed(table, Where(search, department), RowCreatedAt, AsIs, limit, row);
    var p: nat :| 1 <= p && ListQuery.Listed(table, Where(search, department), RowCreatedAt, AsIs, limit, p, AsIs(row));
    assert var r := ListSubjects(subjects, departments, Query(search, department, Some(JsInt.Decimal(p)), limit));
           p <= r.pagination.totalPages && row in r.data;
  }

  /** The department filter only keeps subjects that have a department. */
  lemma DepartmentFilterNeedsDepartment(subjects: seq<Subject>, departments: seq<Department>, q: Query)
    requires Truthy(q.department)
    ensures forall k :: 0 <= k < |ListSubjects(subjects, departments, q).data| ==>
              ListSubjects(subjects, departments, q).data[k].department.Some?
  {
  }
}

=== FILE: text.dfy ===
/** String primitives the application borrows from JavaScript and
    PostgreSQL: whitespace trimming, `split(" ")`, dropping empty
    pieces, ASCII case mapping, and the `%term%` ILIKE substring test. */
module Text {
  import opened Common

  /** The characters JavaScript's `trim` and `parseInt` skip: the
      WhiteSpace and LineTerminator code points of ECMAScript. */
  predicate IsJsSpace(c: char) {
    var n := c as int;
    n == 0x09 || n == 0x0A || n == 0x0B || n == 0x0C || n == 0x0D || n == 0x20 ||
    n == 0xA0 || n == 0x1680 || (0x2000 <= n <= 0x200A) || n == 0x2028 || n == 0x2029 ||
    n == 0x202F || n == 0x205F || n == 0x3000 || n == 0xFEFF
  }

  /** `s.trimStart()`: drops the leading whitespace, and only that. */
  function TrimStart(s: string): (r: string)
    ensures |r| <= |s| && r == s[|s| - |r|..]
    ensures forall i :: 0 <= i < |s| - |r| ==> IsJsSpace(s[i])
    ensures |r| > 0 ==> !IsJsSpace(r[0])
  {
    if |s| > 0 && IsJsSpace(s[0]) then TrimStart(s[1..]) else s
  }

  /** `s.trimEnd()`: drops the trailing whitespace, and only that. */
  function TrimEnd(s: string): (r: string)
    ensures |r| <= |s| && r == s[..|r|]
    ensures forall i :: |r| <= i < |s| ==> IsJsSpace(s[i])
    ensures |r| > 0 ==> !IsJsSpace(r[|r| - 1])
  {
    if |s| > 0 && IsJsSpace(s[|s| - 1]) then TrimEnd(s[..|s| - 1]) else s
  }

  /** How many leading whitespace characters `trim` removes. */
  function LeadingSpaces(s: string): nat
  {
    |s| - |TrimStart(s)|
  }

  /** `s.trim()`: the middle of `s` between whitespace on both sides. */
  function Trim(s: string): (r: string)
    ensures LeadingSpaces(s) + |r| <= |s|
    ensures r == s[LeadingSpaces(s)..LeadingSpaces(s) + |r|]
    ensures forall i :: 0 <= i < LeadingSpaces(s) ==> IsJsSpace(s[i])
    ensures forall i :: LeadingSpaces(s) + |r| <= i < |s| ==> IsJsSpace(s[i])
    ensures |r| > 0 ==> !IsJsSpace(r[0]) && !IsJsSpace(r[|r| - 1])
  {
    TrimEnd(TrimStart(s))
  }

  /** A string made only of whitespace trims to the empty string. */
  lemma TrimBlank(s: string)
    requires forall i :: 0 <= i < |s| ==> IsJsSpace(s[i])
    ensures Trim(s) == ""
  {
  }

  /** A string with no whitespace at either end is its own trim. */
  lemma TrimKeeps(s: string)
    requires |s| > 0 && !IsJsSpace(s[0]) && !IsJsSpace(s[|s| - 1])
    ensures Trim(s) == s
  {
  }

  /** `s.split(sep)` for a one-character separator: the pieces between
      separators, empty pieces included, so there is always at least one. */
  function Split(s: string, sep: char): (r: seq<string>)
    ensures |r| >= 1
    ensures forall i :: 0 <= i < |r| ==> sep !in r[i]
  {
    if |s| == 0 then [""]
    else
      var rest := Split(s[1..], sep);
      if s[0] == sep then [""] + rest
      else [[s[0]] + rest[0]] + rest[1..]
  }

  /** `parts.join(sep)`. */
  function Join(parts: seq<string>, sep: char): string
  {
    if |parts| == 0 then ""
    else if |parts| == 1 then parts[0]
    else parts[0] + [sep] + Join(parts[1..], sep)
  }

  /** Joining the pieces of a split restores the original string. */
  lemma {:induction false} JoinSplit(s: string, sep: char)
    ensures Join(Split(s, sep), sep) == s
  {
    if |s| > 0 {
      var rest := Split(s[1..], sep);
      JoinSplit(s[1..], sep);
      if s[0] == sep {
        assert Split(s, sep) == [""] + rest;
        assert ([""] + rest)[1..] == rest;
      } else {
        var r := Split(s, sep);
        assert r == [[s[0]] + rest[0]] + rest[1..];
        if |rest| == 1 {
          assert Join(r, sep) == [s[0]] + rest[0];
        } else {
          assert r[1..] == rest[1..];
          assert Join(r, sep) == [s[0]] + rest[0] + [sep] + Join(rest[1..], sep);
        }
        assert [s[0]] + s[1..] == s;
      }
    }
  }

  /** Splitting a join of separator-free pieces gives the pieces back. */
  lemma {:induction false} SplitJoin(parts: seq<string>, sep: char)
    requires |parts| >= 1
    requires forall i :: 0 <= i < |parts| ==> sep !in parts[i]
    ensures Split(Join(parts, sep), sep) == parts
    decreases |parts|, |parts[0]|
  {
    var p := parts[0];
    if |p| > 0 {
      var shorter := [p[1..]] + parts[1..];
      assert sep !in shorter[0];
      assert forall i :: 1 <= i < |shorter| ==> shorter[i] == parts[i];
      SplitJoin(shorter, sep);
      var j := Join(parts, sep);
      if |parts| == 1 {
        assert j == p;
      } else {
        assert shorter[1..] == parts[1..];
        assert j == p + [sep] + Join(parts[1..], sep);
      }
      assert j[1..] == Join(shorter, sep);
      assert j[0] == p[0] && p[0] != sep;
      assert [p[0]] + p[1..] == p;
      assert Split(j, sep) == [[p[0]] + p[1..]] + parts[1..];
    } else if |parts| > 1 {
      SplitJoin(parts[1..], sep);
      var j := Join(parts, sep);
      assert j == [sep] + Join(parts[1..], sep);
      assert j[1..] == Join(parts[1..], sep);
      assert parts == [""] + parts[1..];
    }
  }

  predicate NonEmpty(w: string) { |w| > 0 }

  /** `s.split(" ").filter(Boolean)`: the space-separated words of `s`;
      runs of spaces never produce empty words. */
  function Words(s: string): (r: seq<string>)
    ensures forall i :: 0 <= i < |r| ==> |r[i]| > 0 && ' ' !in r[i]
  {
    Filter(Split(s, ' '), NonEmpty)
  }

  /** Words joined by single spaces come apart into the same words. */
  lemma WordsOfJoin(ws: seq<string>)
    requires |ws| >= 1
    requires forall i :: 0 <= i < |ws| ==> |ws[i]| > 0 && ' ' !in ws[i]
    ensures Words(Join(ws, ' ')) == ws
  {
    SplitJoin(ws, ' ');
    FilterAll(ws, NonEmpty);
  }

  /** A join of non-empty pieces starts where the first piece starts and
      ends where the last one ends. */
  lemma {:induction false} JoinEnds(parts: seq<string>, sep: char)
    requires |parts| >= 1
    requires forall i :: 0 <= i < |parts| ==> |parts[i]| > 0
    ensures var j := Join(parts, sep);
            |j| > 0 && j[0] == parts[0][0] &&
            j[|j| - 1] == parts[|parts| - 1][|parts[|parts| - 1]| - 1]
  {
    if |parts| > 1 {
      JoinEnds(parts[1..], sep);
    }
  }

  /** The concatenation of a sequence of strings. */
  function Concat(parts: seq<string>): string
  {
    if |parts| == 0 then "" else parts[0] + Concat(parts[1..])
  }

  /** `s` with every occurrence of `c` removed. */
  function Strip(s: string, c: char): (r: string)
    ensures c !in r
  {
    if |s| == 0 then ""
    else if s[0] == c then Strip(s[1..], c)
    else [s[0]] + Strip(s[1..], c)
  }

  /** Concatenating one-character strings spells out their characters. */
  lemma {:induction false} ConcatOfLetters(ls: seq<string>)
    requires forall i :: 0 <= i < |ls| ==> |ls[i]| == 1
    ensures |Concat(ls)| == |ls|
    ensures forall i :: 0 <= i < |ls| ==> Concat(ls)[i] == ls[i][0]
  {
    if |ls| > 0 {
      ConcatOfLetters(ls[1..]);
      assert Concat(ls) == ls[0] + Concat(ls[1..]);
      forall i | 1 <= i < |ls| ensures Concat(ls)[i] == ls[i][0] {
        assert ls[1..][i - 1] == ls[i];
      }
    }
  }

  lemma {:induction false} ConcatAppend(a: seq<string>, b: seq<string>)
    ensures Concat(a + b) == Concat(a) + Concat(b)
  {
    if |a| > 0 {
      ConcatAppend(a[1..], b);
      assert (a + b)[1..] == a[1..] + b;
    } else {
      assert a + b == b;
    }
  }

  lemma {:induction false} ConcatSplit(s: string, sep: char)
    ensures Concat(Split(s, sep)) == Strip(s, sep)
  {
    if |s| > 0 {
      ConcatSplit(s[1..], sep);
      var rest := Split(s[1..], sep);
      if s[0] == sep {
        assert ([""] + rest)[1..] == rest;
      } else {
        var r := [[s[0]] + rest[0]] + rest[1..];
        assert r[1..] == rest[1..];
        assert Concat(rest) == rest[0] + Concat(rest[1..]);
      }
    }
  }

  lemma {:induction false} ConcatDropsEmpty(parts: seq<string>)
    ensures Concat(Filter(parts, NonEmpty)) == Concat(parts)
  {
    if |parts| > 0 {
      var init := parts[..|parts| - 1];
      var last := parts[|parts| - 1];
      ConcatDropsEmpty(init);
      assert parts == init + [last];
      ConcatAppend(init, [last]);
      if NonEmpty(last) {
        ConcatAppend(Filter(init, NonEmpty), [last]);
      } else {
        assert Concat([last]) == "";
      }
    }
  }

  /** The words hold every non-space character of `s`, in order, and nothing
      else: dropping the empty pieces loses no text. */
  lemma WordsKeepText(s: string)
    ensures Concat(Words(s)) == Strip(s, ' ')
  {
    ConcatDropsEmpty(Split(s, ' '));
    ConcatSplit(s, ' ');
  }

  /** A string of spaces (or the empty string) has no words. */
  lemma WordsOfSpaces(s: string)
    requires forall i :: 0 <= i < |s| ==> s[i] == ' '
    ensures Words(s) == []
  {
    var w := Words(s);
    if |w| > 0 {
      WordsKeepText(s);
      StripAll(s, ' ');
    }
  }

  lemma {:induction false} StripAll(s: string, c: char)
    requires forall i :: 0 <= i < |s| ==> s[i] == c
    ensures Strip(s, c) == ""
  {
    if |s| > 0 { StripAll(s[1..], c); }
  }

  /** `c.toUpperCase()` restricted to ASCII letters; other characters unchanged. */
  function UpperChar(c: char): (u: char)
    ensures 'a' <= c <= 'z' ==> 'A' <= u <= 'Z' && u as int == c as int - 32
    ensures !('a' <= c <= 'z') ==> u == c
  {
    if 'a' <= c <= 'z' then (c as int - 32) as char else c
  }

  /** Lower-case mapping of ASCII letters; other characters unchanged. */
  function LowerChar(c: char): (l: char)
    ensures 'A' <= c <= 'Z' ==> 'a' <= l <= 'z' && l as int == c as int + 32
    ensures !('A' <= c <= 'Z') ==> l == c
  {
    if 'A' <= c <= 'Z' then (c as int + 32) as char else c
  }

  function Upper(s: string): (r: string)
    ensures |r| == |s| && forall i :: 0 <= i < |s| ==> r[i] == UpperChar(s[i])
  {
    seq(|s|, i requires 0 <= i < |s| => UpperChar(s[i]))
  }

  function Lower(s: string): (r: string)
    ensures |r| == |s| && forall i :: 0 <= i < |s| ==> r[i] == LowerChar(s[i])
  {
    seq(|s|, i requires 0 <= i < |s| => LowerChar(s[i]))
  }

  /** Case folding forgets the case a letter was written in. */
  lemma LowerOfUpper(s: string)
    ensures Lower(Upper(s)) == Lower(s)
  {
  }

  /** `needle` sits in `hay` starting at position `i`. */
  ghost predicate OccursAt(hay: string, needle: string, i: int) {
    0 <= i && i + |needle| <= |hay| && hay[i..i + |needle|] == needle
  }

  /** Substring test, the meaning of SQL `LIKE '%needle%'` without wildcards. */
  function Contains(hay: string, needle: string): (b: bool)
    ensures b <==> exists i :: OccursAt(hay, needle, i)
  {
    if needle <= hay then
      assert OccursAt(hay, needle, 0);
      true
    else if |hay| == 0 then
      false
    else
      ContainsStep(hay, needle);
      Contains(hay[1..], needle)
  }

  /** Past a non-matching first position, occurrences are those of the tail. */
  lemma ContainsStep(hay: string, needle: string)
    requires |hay| > 0 && !(needle <= hay)
    ensures (exists i :: OccursAt(hay, needle, i)) <==> (exists i :: OccursAt(hay[1..], needle, i))
  {
    if i :| OccursAt(hay[1..], needle, i) {
      assert hay[i + 1..i + 1 + |needle|] == hay[1..][i..i + |needle|];
      assert OccursAt(hay, needle, i + 1);
    }
    if i :| OccursAt(hay, needle, i) {
      if i > 0 {
        assert hay[1..][i - 1..i - 1 + |needle|] == hay[i..i + |needle|];
        assert OccursAt(hay[1..], needle, i - 1);
      }
    }
  }

  /** `value ILIKE '%term%'`: substring test after folding both sides to
      lower case. */
  function ILikeContains(value: string, term: string): (b: bool)
    ensures b <==> exists i :: OccursAt(Lower(value), Lower(term), i)
  {
    Contains(Lower(value), Lower(term))
  }

  /** ILIKE does not care how either side is capitalised. */
  lemma ILikeIgnoresCase(value: string, term: string)
    ensures ILikeContains(Upper(value), term) == ILikeContains(value, term)
    ensures ILikeContains(value, Upper(term)) == ILikeContains(value, term)
  {
    LowerOfUpper(value);
    LowerOfUpper(term);
  }
}

=== FILE: users.dfy ===
/** `GET /users`: users filtered by an optional search term (name or email,
    ignoring case) and an optional exact role, combined with AND, newest
    first, one page at a time. */
module UsersRoute {
  import opened Common
  import opened Schema
  import Text
  import Paging
  import ListQuery
  import JsInt

  datatype Query = Query(
    search: Option<string>,
    role: Option<string>,
    page: Option<string>,
    limit: Option<string>)

  /** The where clause: `name ILIKE %search%` or `email ILIKE %search%`
      when a search term is given, AND `role = role` when a role is given. */
  predicate Matches(search: Option<string>, role: Option<string>, u: User) {
    (!Truthy(search) ||
     Text.ILikeContains(u.name, search.value) || Text.ILikeContains(u.email, search.value)) &&
    (!Truthy(role) || u.role == role.value)
  }

  function Where(search: Option<string>, role: Option<string>): User -> bool {
    (u: User) => Matches(search, role, u)
  }

  /** The handler's 200 response. */
  function ListUsers(users: seq<User>, q: Query): (r: Paging.Listing<User>)
    ensures r.pagination.page >= 1 && 1 <= r.pagination.limit <= Paging.MaxLimit
    ensures r.pagination.total == |Filter(users, Where(q.search, q.role))|
    ensures r.pagination.totalPages == Paging.CeilDiv(r.pagination.total, r.pagination.limit)
    ensures |r.data| <= r.pagination.limit
    ensures forall k :: 0 <= k < |r.data| ==> r.data[k] in users && Matches(q.search, q.role, r.data[k])
    ensures forall i, j :: 0 <= i < j < |r.data| ==> r.data[i].createdAt >= r.data[j].createdAt
    ensures r.data == MapRows(
                        Paging.PageOf(ListQuery.Ordered(users, Where(q.search, q.role), UserCreatedAt),
                                      r.pagination.page, r.pagination.limit),
                        AsIs)
  {
    ListQuery.PageRows(users, Where(q.search, q.role), UserCreatedAt, AsIs, q.page, q.limit);
    ListQuery.List(users, Where(q.search, q.role), UserCreatedAt, AsIs, q.page, q.limit)
  }

  /** The role filter is exact: with a role given, every listed user has
      precisely that role, whatever the search term. */
  lemma RoleIsExact(users: seq<User>, q: Query)
    requires Truthy(q.role)
    ensures forall k :: 0 <= k < |ListUsers(users, q).data| ==>
              ListUsers(users, q).data[k].role == q.role.value
  {
  }

  /** Search and role combine with AND: selecting by the search term and
      then by the role keeps the same users as the where clause with both,
      so the response is that of the role filter run on the users the
      search keeps. */
  lemma FiltersCombineWithAnd(users: seq<User>, q: Query)
    ensures Filter(Filter(users, Where(q.search, None)), Where(None, q.role)) ==
            Filter(users, Where(q.search, q.role))
    ensures ListUsers(users, q) ==
            ListQuery.List(Filter(users, Where(q.search, None)), Where(None, q.role),
                           UserCreatedAt, AsIs, q.page, q.limit)
  {
    FilterFilter(users, Where(q.search, None), Where(None, q.role), Where(q.search, q.role));
  }

  /** Without filters every user is counted. */
  lemma NoFiltersCountsAll(users: seq<User>, q: Query)
    requires !Truthy(q.search) && !Truthy(q.role)
    ensures ListUsers(users, q).pagination.total == |users|
  {
    FilterAll(users, Where(q.search, q.role));
  }

  /** Every matching user is on some page between 1 and `totalPages`. */
  lemma EveryMatchListed(users: seq<User>, search: Option<string>, role: Option<string>,
                         limit: Option<string>, u: User)
    requires u in users && Matches(search, role, u)
    ensures exists p: nat :: 1 <= p &&
              var r := ListUsers(users, Query(search, role, Some(JsInt.Decimal(p)), limit));
              p <= r.pagination.totalPages && u in r.data
  {
    ListQuery.EveryMatchListed(users, Where(search, role), UserCreatedAt, AsIs, limit, u);
    var p: nat :| 1 <= p && ListQuery.Listed(users, Where(search, role), UserCreatedAt, AsIs, limit, p, AsIs(u));
    assert var r := ListUsers(users, Query(search, role, Some(JsInt.Decimal(p)), limit));
           p <= r.pagination.totalPages && u in r.data;
  }
}
